=== FILE: README.md ===
# Portfolio contact pipeline and UI decision rules, in Dafny

This project models the parts of a personal portfolio site that make decisions:

- the `useTypingEffect` hook's state machine;
- the MongoDB-backed contact-message store;
- the two server handlers that validate, save and answer contact submissions;
- the e-mail composition;
- the browser-side contact service;
- the visitor and admin contact forms;
- the navbar's scroll-spy.

Everything is a pure function over immutable datatypes. The outside world enters as parameters:

- the outcome of connecting and of each driver call;
- what `fetch` settled to;
- what `JSON.parse` made of a body;
- the timestamp and ObjectId an insert would use;
- the environment variables, as a map.

Module layout (one module per source file, plus shared helpers):

| module | file | models |
|---|---|---|
| `Wrappers` | wrappers.dfy | `Option`, `Result` (returned value or thrown message), `Outcome` |
| `Js` | js.dfy | JSON values, truthiness, `a \|\| b`, `v?.key`, `String(v)`, `includes`, decimal text, template literals |
| `Http` | http.dfy | `fetch` replies (`ok` is status 200-299) and handler responses |
| `ObjectIds` | object_id.dfy | ObjectId text: 24 lower-case hex digits out, 24 hex digits of either case in |
| `TypingEffect` | typing_effect.dfy | `src/hooks/use-typing-effect.ts` |
| `MessageStore` | message_store.dfy | `src/lib/mongodb.ts` |
| `Validation` | validation.dfy | the required-field check shared by `api/contact.ts` and `server/index.ts` |
| `EmailService` | email_service.dfy | `src/lib/emailService.ts` |
| `ContactApi` | contact_api.dfy | `api/contact.ts` |
| `ExpressServer` | express_server.dfy | `server/index.ts` |
| `ContactService` | contact_service.dfy | `src/services/contactService.ts` |
| `ContactForm` | contact_form.dfy | `src/components/Contact.tsx` |
| `ContactAdmin` | contact_admin.dfy | `src/components/ContactAdmin.tsx` |
| `Navbar` | navbar.dfy | `src/components/Navbar.tsx` |
| `ClientServer` | client_server.dfy | the client services and pages talking to the Express server |

Points of the code the model keeps as written:

- The required-field check is JavaScript truthiness only; a whitespace-only field passes (`Validation.WhitespaceAccepted`).
- `api/contact.ts` awaits the notification and swallows its failure, so the response and the store do not depend on it (`ContactApi.EmailDoesNotAffectOutcome`). `server/index.ts` sends no notification.
- A status update with text that is not 24 hexadecimal digits throws rather than answering false, because bson's `new ObjectId(id)` rejects it. That call runs after the connection is made, so a failed connect is reported first.
- The listing sorts by `createdAt` only; documents with equal timestamps have no defined order.
- `ContactAdmin.tsx` (lines 81-87) has a `handleChange` identical to the visitor form's; `ContactForm.HandleChange` models both.

The module `ClientServer` (client_server.dfy) puts the two sides together: the browser service and the admin page fed with the Express server's replies.

Request bodies are JSON values, not strings, so a truthy non-string field (a number, say) passes validation and is stored as it is.

## Model

| member | source | states |
|---|---|---|
| TypingEffect.InitialInv | src/hooks/use-typing-effect.ts:16-19 | the first render has word index 0, empty text, typing, not paused, and already satisfies the prefix invariant when there is a word |
| TypingEffect.Scheduled | src/hooks/use-typing-effect.ts:46-58 | nothing is scheduled while paused; typing schedules `typeText`, deleting schedules `deleteText` |
| TypingEffect.TypeText | src/hooks/use-typing-effect.ts:23-34 | fails exactly when the index names no word; on a proper prefix it adds one character and stays a prefix of the word; on the complete word it pauses and keeps the text |
| TypingEffect.EndPauseStep | src/hooks/use-typing-effect.ts:29-32 | ending the pause clears `paused`, switches to deleting, and keeps text and index |
| TypingEffect.DeleteText | src/hooks/use-typing-effect.ts:36-44 | on non-empty text removes exactly the last character; on empty text switches to typing and moves to the next index, wrapping to 0, always below the word count |
| TypingEffect.StepInv | src/hooks/use-typing-effect.ts:21-44 | every timer firing from a state with the index in range, the text a prefix of the current word, and pauses only on the full word succeeds and keeps all three |
| TypingEffect.RunInv | src/hooks/use-typing-effect.ts:21-58 | any number of firings from such a state keep the invariant |
| TypingEffect.ReachableInv | src/hooks/use-typing-effect.ts:16-58 | for a non-empty word list every reachable state has the index in range and shows a prefix of `words[index]` |
| TypingEffect.TypingPhase | src/hooks/use-typing-effect.ts:23-26 | typing from the first k characters reaches the whole word after exactly `length - k` firings |
| TypingEffect.DeletingPhase | src/hooks/use-typing-effect.ts:36-38 | deleting from the first k characters empties the text after exactly k firings |
| TypingEffect.WordCycle | src/hooks/use-typing-effect.ts:23-44 | one word takes `2 * length + 3` firings (type, pause, resume, delete, advance), then the next word (mod count) starts from empty text |
| ObjectIds.ParseId | src/lib/mongodb.ts:92 | `new ObjectId(text)` succeeds exactly on 24 hexadecimal digits and otherwise throws bson's message |
| ObjectIds.IdTextRoundTrip | src/lib/mongodb.ts:61 | the id text returned by a save parses back to the same ObjectId |
| ObjectIds.IdTextInjective | src/lib/mongodb.ts:61 | distinct ObjectIds print as distinct texts |
| MessageStore.Connect | src/lib/mongodb.ts:10-25 | a cached client and db are reused unchanged; otherwise a new client is cached and the db is set only on success; a failed connect is rethrown |
| MessageStore.Close | src/lib/mongodb.ts:27-33 | with no client nothing happens; a successful close empties the cache; a failing close is rethrown and changes nothing |
| MessageStore.ConnectIdempotent | src/lib/mongodb.ts:10-12 | after a successful connect, connecting again returns the same handle and leaves the cache alone, whatever a new attempt would do |
| MessageStore.CloseThenConnect | src/lib/mongodb.ts:27-33 | after a close the cache is empty and the next connect opens a new client |
| MessageStore.Save | src/lib/mongodb.ts:47-67 | on success exactly one record is appended with the four fields unchanged, the given `createdAt` and status 'new', and the reply has `success` true and an id text that parses to the new `_id`; connection, driver and duplicate-key failures are rethrown and store nothing |
| MessageStore.SaveKeepsIdsUnique | src/lib/mongodb.ts:57 | saving keeps `_id`s unique |
| MessageStore.InsertNewestFirst | src/lib/mongodb.ts:77 | inserting into a newest-first sequence keeps it newest-first and adds exactly that record |
| MessageStore.SortNewestFirst | src/lib/mongodb.ts:77 | the sort's result is a permutation of its input ordered by `createdAt` descending |
| MessageStore.NewestFirstUnique | src/lib/mongodb.ts:77 | when no two different documents share a timestamp, any two newest-first arrangements of the same documents are equal |
| MessageStore.ListingDetermined | src/lib/mongodb.ts:70-84 | with distinct timestamps a successful listing equals every newest-first arrangement of the stored documents, whatever order the database picks for ties |
| MessageStore.List | src/lib/mongodb.ts:70-84 | the listing holds every stored record exactly once, newest first; it never changes the records; failures are rethrown |
| MessageStore.FindId | src/lib/mongodb.ts:91-94 | finds the first record whose `_id` matches, or reports that none does |
| MessageStore.UpdateStatus | src/lib/mongodb.ts:87-101 | a failed connect is rethrown with its own error; after connecting, invalid id text throws bson's message and a failing driver call is rethrown with its error; on success only the first matching record's status is rewritten and the answer is true iff that status changed (`modifiedCount > 0`); failures change nothing |
| MessageStore.UpdateTouchesOnlyTarget | src/lib/mongodb.ts:91-96 | with unique ids, an update changes only `status` of the matching record, nothing else, keeps ids unique, and answers true iff a matching record had a different status |
| MessageStore.UpdateUnknownId | src/lib/mongodb.ts:91-96 | an ObjectId not stored answers false and changes nothing |
| MessageStore.ListAfterUpdate | src/lib/mongodb.ts:74-94 | after a successful update a later listing shows the record with its new status |
| MessageStore.SaveThenListNewestFirst | src/lib/mongodb.ts:51-79 | a message saved later than every stored one is the first element of the next listing, which has one more element |
| Validation.Validate | api/contact.ts:31-33 | the body passes exactly when all four fields are truthy, and then its fields are what is saved |
| Validation.EmptyFieldRejected | server/index.ts:26-31 | a missing, null or empty field fails the check |
| Validation.WhitespaceAccepted | server/index.ts:26 | every body whose four fields are non-empty whitespace-only strings passes: nothing trims them |
| EmailService.Transport | src/lib/emailService.ts:21-24 | a non-empty `VITE_EMAIL_SERVICE` is the service, otherwise 'gmail'; user and password are the variables when set, '' when unset or empty |
| EmailService.NewlinesToBrAppend | src/lib/emailService.ts:47 | the newline replacement works piecewise over concatenation |
| EmailService.NewlinesToBrChar | src/lib/emailService.ts:47 | a newline becomes `<br>`, any other character is kept |
| EmailService.NewlinesToBrShape | src/lib/emailService.ts:62 | the replaced text has no newline and is three characters longer per newline |
| EmailService.NewlinesToBrIdentity | src/lib/emailService.ts:62 | text without newlines is unchanged |
| EmailService.OwnerMail | src/lib/emailService.ts:38-49 | goes to `VITE_OWNER_EMAIL` or the default owner address, with subject "New Contact Form Submission: " + subject; the HTML contains the name, e-mail, subject and the `<br>`-converted message |
| EmailService.SenderMail | src/lib/emailService.ts:52-65 | goes to the submitter with the fixed thank-you subject; the HTML contains the name, subject and the `<br>`-converted message |
| EmailService.SendContactEmail | src/lib/emailService.ts:31-78 | both mails are composed; the result is `{success: true}` iff both sends succeed, otherwise one of the failures is rethrown |
| EmailService.SendOutcomeDependsOnlyOnSends | src/lib/emailService.ts:67-78 | the result is the same for any form and configuration, and a failed submitter send fails the call whatever the owner send does |
| EmailService.SendEmailViaApi | src/lib/emailService.ts:81-101 | a non-2xx reply throws 'Failed to send email'; network and parse errors are rethrown; otherwise the parsed body is returned |
| ContactApi.Handler | api/contact.ts:12-59 | CORS headers on every path; OPTIONS gives 200 with no body; other non-POST methods give 405; a null or undefined body gives 500 with the TypeError as `details` and no save; a falsy field gives 400 with no save; a failed save gives 500 with its message as `details`; a successful save gives 200 with the new id, and only then is the e-mail attempted |
| ContactApi.EmailDoesNotAffectOutcome | api/contact.ts:38-50 | the e-mail outcome changes neither the response nor the store |
| ContactApi.ResponseTellsTruth | api/contact.ts:35-58 | a 200 reply to a POST happens iff one record was appended with the body's fields and status 'new', and its id names that record; the e-mail is attempted iff something was saved |
| ExpressServer.PostContact | server/index.ts:21-53 | a null or undefined body gives 500 'Internal server error' with the destructuring TypeError as `details`; a falsy field gives 400 `{success:false}` with no save; a failed save gives 500 'Internal server error' with details; success gives 200 with the saved id; no notification |
| ExpressServer.RecordsJson | server/index.ts:58-62 | the `data` array has one JSON object per listed record, in order |
| ExpressServer.GetContacts | server/index.ts:56-71 | 200 `{success:true, data}` with a newest-first permutation of the store, or 500 'Failed to fetch contacts' with the failure; the store is unchanged |
| ExpressServer.GetContactsRepeatable | server/index.ts:56-62 | with distinct timestamps the 200 reply carries any newest-first arrangement of the documents, so two listings with no write in between give identical replies |
| ExpressServer.PostReplyShape | server/index.ts:27-52 | every reply has a JSON body, its status is 200, 400 or 500, and `success` is truthy exactly on the 200 |
| ExpressServer.PostTellsTruth | server/index.ts:34-43 | a 200 reply happens iff exactly the submitted record was appended; any other reply leaves the records unchanged |
| ContactService.ApiBase | src/services/contactService.ts:18-21 | the API base is `VITE_API_URL`, or 'http://localhost:3001/api' when unset or empty |
| ContactService.SubmitContact | src/services/contactService.ts:23-43 | POSTs to `<base>/contact`; succeeds iff the reply is 2xx and parses; every failure becomes 'Failed to submit contact form' |
| ContactService.GetContacts | src/services/contactService.ts:80-98 | GETs `<base>/contacts`; non-2xx throws 'HTTP error! status: <code>'; other errors are rethrown unchanged |
| ContactService.StoredList | src/services/contactService.ts:52 | an absent stored list reads as `[]`; only a stored array can be pushed to |
| ContactService.SubmitContactDirect | src/services/contactService.ts:46-77 | succeeds iff the stored list is an array (or absent) and the write succeeds; then the list gains the new contact at the end and the reply is the success message; otherwise storage is untouched and the failure reply is returned instead of throwing |
| ContactService.DirectAppendsOne | src/services/contactService.ts:52-61 | earlier contacts keep their places and exactly one is added at the end, with the four fields, status 'new' and an id that is the decimal text of the submission time |
| ContactForm.HandleChange | src/components/Contact.tsx:21-27 | only the named field takes the new value; the other fields are unchanged |
| ContactForm.ChangesCommute | src/components/Contact.tsx:21-27 | edits to two different fields can be applied in either order |
| ContactForm.RetryResendsSamePayload | src/components/Contact.tsx:29-99 | after a failed submission the kept form makes a second attempt post the same payload; a successful retry clears the form, a failed one keeps it |
| ContactForm.BuildPayload | src/components/Contact.tsx:45-53 | subject is "Portfolio Contact: " + subject, the name is sent twice, the e-mail and message are copied, and `botcheck` is '' |
| ContactForm.ReplyErrorText | src/components/Contact.tsx:73-75 | the error text is `data.message` if truthy, else `data.error` if truthy, else the fallback |
| ContactForm.Verdict | src/components/Contact.tsx:55-76 | success iff the reply is 2xx, parses, and has a truthy `success`; a body that is not JSON gives 'Invalid response from email service'; a network error keeps its message |
| ContactForm.HandleSubmit | src/components/Contact.tsx:29-99 | without an access key only a configuration toast, no request; otherwise the payload is sent, success resets all four fields, failure keeps them and shows the error, and `isSubmitting` ends false |
| ContactAdmin.StatusColor | src/components/ContactAdmin.tsx:62-69 | 'new' is blue, 'read' yellow, 'replied' green, anything else grey |
| ContactAdmin.StatusColorsDistinct | src/components/ContactAdmin.tsx:62-69 | each stored status has its own colour, never the fallback grey |
| ContactAdmin.FetchMessages | src/components/ContactAdmin.tsx:41-60 | a stored localStorage list wins; otherwise the API's `data`, or `[]` when it is falsy; errors are recorded and keep the previous list; a success leaves an earlier error in place; loading always ends |
| ContactAdmin.Verdict | src/components/ContactAdmin.tsx:127-150 | a body that is not JSON reads as null; the error text is `data.message`, then `data.error`, then the anti-bot text if the raw body contains 'Just a moment', else 'Failed to send message' |
| ContactAdmin.VerdictsAgree | src/components/ContactAdmin.tsx:141 | the admin form and the visitor form treat the same replies as successes |
| ContactAdmin.HandleSubmit | src/components/ContactAdmin.tsx:89-175 | without a key only a toast, no request; otherwise the payload also carries the page; success resets the form; an empty error text falls back to a generic description; `isSubmitting` ends false |
| ContactAdmin.SubmitsAgree | src/components/ContactAdmin.tsx:89-175 | the admin and visitor forms leave the same form and `isSubmitting`, agree on whether a toast is an error, and post the same payload except for the page |
| Navbar.InitialState | src/components/Navbar.tsx:8-10 | the page opens on 'hero', unscrolled, with the menu closed |
| Navbar.FindSpanning | src/components/Navbar.tsx:23-31 | finds the first section whose element exists and spans y = 100, or reports that none does |
| Navbar.HandleScroll | src/components/Navbar.tsx:14-36 | `isScrolled` iff `scrollY > 10`; the active section becomes the first of hero, about, skills, projects, contact that spans y = 100, or stays unchanged when none does |
| Navbar.HandleScrollIdempotent | src/components/Navbar.tsx:14-36 | handling the same scroll position twice changes nothing more |
| Navbar.ActiveIsASection | src/components/Navbar.tsx:23-35 | the active section stays one of the five |
| Navbar.ScrollToSection | src/components/Navbar.tsx:50-57 | for an existing element, that section becomes active and the menu closes; otherwise nothing changes |
| Navbar.ToggleMenu | src/components/Navbar.tsx:115 | the menu button flips the mobile-menu flag and nothing else |
| Navbar.ToggleTwice | src/components/Navbar.tsx:115 | pressing the button twice restores the state |
| Navbar.ActiveAlwaysASection | src/components/Navbar.tsx:14-57 | any sequence of scrolls, clicks on nav item ids and menu presses keeps the active section among the five |
| Navbar.ReachableActive | src/components/Navbar.tsx:42-164 | from the first render, the active section is always one of the five when every click targets a nav item id, as every `scrollToSection` call site (lines 77, 92, 106, 145 and 164) does |
| ClientServer.SubmitReachesStore | src/services/contactService.ts:23-43 | posting a form to the Express route gives a reply with truthy `success` iff the form was stored as one new document; any other outcome is 'Failed to submit contact form' with nothing stored |
| ClientServer.ListingReachesAdmin | src/components/ContactAdmin.tsx:41-60 | fed by the Express listing, the admin page shows a newest-first permutation of the store as JSON on a 200, and on a 500 keeps its list and records 'HTTP error! status: 500' |
| ClientServer.DirectSubmissionShown | src/services/contactService.ts:46-77 | after a successful localStorage submission the admin page shows the earlier contacts followed by the new one |
| ClientServer.ApiCallsAgree | src/lib/emailService.ts:81-101 | `sendEmailViaAPI` and `submitContact` accept exactly the same replies and return the same parsed body |

## Left out

- Strings are sequences of Unicode scalar values, not UTF-16 code units. The typing hook's `substring` and `length` count code units, so a word with characters outside the Basic Multilingual Plane types in more steps and shows a lone surrogate on the way. The model assumes BMP-only words, as the words the hero section passes are.
- Concurrent requests are not interleaved: every handler call is one sequential, atomic run. `connectToDatabase` stores `client` before awaiting `connect()`, so two racing first requests each create a client, `db` comes from the second and the first client leaks; `MessageStore.Connect` describes one call at a time.
- Every driver and `fetch` call is taken to settle; there are no time-outs. `api/contact.ts` awaits the notification before replying, so a notification call that never settles withholds the reply; `ContactApi.EmailDoesNotAffectOutcome` covers settled outcomes only.
- `console.log` and `console.error` output is not modelled.
- The `express.json()` body parser: it rejects a JSON `null` or primitive body with its own 400 before the route runs. The modelled `null`/`undefined` body path of `ExpressServer.PostContact` stands for a body the parser left unset.
- Timer durations of the typing hook (`typingSpeed`, `deletingSpeed`, `delayBetweenWords`): only the order in which timers fire is modelled.
- The typing hook's `words` changing between renders, unmounting, and the pause timeout never being cleared.
- `TypingEffect.DeleteText`: for an empty word list the source stores a `NaN` index instead of throwing. The model reports `None`, the same value it uses for the TypeError `typeText` raises.
- The real MongoDB driver, ObjectId generation, nodemailer, `fetch`, `JSON.parse`, `localStorage`, Express and React. Each is replaced by a parameter carrying its outcome.
- Wall-clock time. `createdAt` and `Date.now()` are naturals passed in, and `toISOString()` is a given string. A stored `Date` is serialized as its timestamp number, not as ISO text. `formatDate` is not modelled.
- Numbers in JSON values are exact integers written in plain decimal. `NaN`, `-0`, fractional numbers, the rounding `JSON.parse` applies above 2^53, and the exponent form `String(n)` uses from 10^21 up are not modelled. The same goes for `scrollY` and bounding boxes.
- `MessageStore.List`: the order of records with equal `createdAt` is left open, as MongoDB leaves it. The model sorts them one way, and the contract promises only a newest-first permutation.
- `EmailService.SendContactEmail`: when both sends fail, `Promise.all` rethrows whichever rejection settles first. The model rethrows the owner mail's error, and the contract only says the error comes from one of the two sends.
- `api/contact.ts` forwards the whole request body to the store. Extra body fields (an `_id`, say) would be stored too. The model stores only the four fields.
- The duplicate-key error text is an approximation: MongoDB's E11000 message also names the database and the key value.
- `new ObjectId(text)` accepting a 12-character string as raw bytes, as older bson releases did. Only the 24-hex-digit form is modelled.
- `updateMessageStatus` called from untyped code with a status outside the three values.
- The `cors()` middleware headers of the Express server, its health route, and `app.listen`.
- The request that `sendEmailViaAPI` and the relay forms build is not part of the outcome they return. Only the payload object of the relay forms is modelled.
- A `res.text()` rejection in the two forms.
- JSX rendering, CSS other than the status colours, and toasts as UI effects. A toast is its kind, title and description.
- `Hero`, `About`, `Skills`, `Footer`, `Projects`, `Index`, `Preloader`, `TiltScript` and `scripts/optimize-images.js`. These hold static content, animation and file I/O, with no decision logic.

=== FILE: client_server.dfy ===
/** The browser side and the server side put together: what the client's
    `ContactService` and the admin page make of the Express server's replies,
    and what the admin page shows after a localStorage submission. */
module ClientServer {
  import opened Wrappers
  import opened Js
  import opened Http
  import opened MessageStore
  import opened ObjectIds
  import Validation
  import EmailService
  import ContactService
  import ContactAdmin
  import ExpressServer

  /** How `fetch` receives a server response: its status, the body text, and
      what parsing that text gives (an empty body does not parse). */
  function Delivered(resp: Response, raw: string): (f: Fetched)
    ensures f.Received? && f.reply.status == resp.status
    ensures resp.body.Some? ==> f.reply.json == Ok(resp.body.value)
    ensures resp.body.None? ==> f.reply.json.Err?
  {
    Received(Reply(resp.status, raw, match resp.body case Some(v) => Ok(v) case None => Err("Unexpected end of JSON input")))
  }

  /** The document a form submission becomes. */
  function Submitted(f: ContactService.FormData, now: nat, id: ObjectId): Record {
    Record(id, Submission(Str(f.name), Str(f.email), Str(f.subject), Str(f.message)), now, New)
  }

  /** `submitContact` posting to the Express server: the client gets a reply
      with a truthy `success` exactly when the form was stored as one new
      document, and every other outcome is the generic failure with nothing
      stored. */
  lemma SubmitReachesStore(env: map<string, string>, f: ContactService.FormData, db: Db, now: nat, id: ObjectId,
                           storeEnv: Env, raw: string)
    ensures var run := ExpressServer.PostContact(db, ContactService.FormBody(f), now, id, storeEnv);
      var call := ContactService.SubmitContact(env, Delivered(run.response, raw));
      && (call.result.Ok? && Truthy(Get(call.result.value, "success")) <==>
            run.db.records == db.records + [Submitted(f, now, id)])
      && (call.result.Err? ==> call.result.error == ContactService.SubmitFailureMessage && run.db.records == db.records)
  {
    var body := ContactService.FormBody(f);
    assert Validation.FieldsOf(body) == Submission(Str(f.name), Str(f.email), Str(f.subject), Str(f.message));
    ExpressServer.PostTellsTruth(db, body, now, id, storeEnv);
    ExpressServer.PostReplyShape(db, body, now, id, storeEnv);
    var run := ExpressServer.PostContact(db, body, now, id, storeEnv);
    var fetched := Delivered(run.response, raw);
    assert fetched.reply.json == Ok(run.response.body.value);
    assert IsOk(fetched.reply) <==> run.response.status == 200;
  }

  /** The admin page fed by the Express listing: on a 200 it shows every
      stored document, newest first, as JSON; on a 500 it records the HTTP
      error and keeps what it showed before. */
  lemma ListingReachesAdmin(db: Db, storeEnv: Env, env: map<string, string>, raw: string,
                            prior: JsValue, priorError: Option<string>)
    ensures var server := ExpressServer.GetContacts(db, storeEnv);
      var view := ContactAdmin.FetchMessages(ContactService.Missing, env, Delivered(server.response, raw), prior, priorError);
      && (server.response.status == 200 ==>
            && view.error == priorError
            && exists listed: seq<Record> {:trigger ExpressServer.RecordsJson(listed)} ::
                 && multiset(listed) == multiset(db.records) && NewestFirst(listed)
                 && view.messages == ExpressServer.RecordsJson(listed))
      && (server.response.status != 200 ==>
            view == ContactAdmin.View(prior, Some("HTTP error! status: 500"), false))
  {
    var server := ExpressServer.GetContacts(db, storeEnv);
    if server.response.status != 200 {
      assert Decimal(500) == "500" by {
        assert DigitChar(0) == '0' && DigitChar(5) == '5';
        assert NatDecimal(5) == "5";
        assert NatDecimal(50) == "5" + "0";
        assert NatDecimal(500) == "50" + "0";
      }
      assert server.response.status == 500;
      var fetched := Delivered(server.response, raw);
      assert fetched.Received? && !IsOk(fetched.reply);
      var api := ContactService.GetContacts(env, fetched).result;
      assert api == Err("HTTP error! status: 500");
    }
  }

  /** After a successful localStorage submission the admin page shows the
      earlier contacts followed by the new one. */
  lemma DirectSubmissionShown(stored: ContactService.Stored, f: ContactService.FormData, now: nat, isoNow: string,
                              env: map<string, string>, fetched: Fetched, prior: JsValue, priorError: Option<string>)
    requires ContactService.StoredList(stored).Some?
    ensures var run := ContactService.SubmitContactDirect(stored, f, now, isoNow, Pass);
      var view := ContactAdmin.FetchMessages(run.stored, env, fetched, prior, priorError);
      && view.messages.Arr?
      && view.messages.items == ContactService.StoredList(stored).value + [ContactService.NewContact(f, now, isoNow)]
      && view.error == priorError
  {
  }

  /** `sendEmailViaAPI` and `submitContact` accept exactly the same replies and
      return the same parsed body; only their error texts differ. */
  lemma ApiCallsAgree(env: map<string, string>, fetched: Fetched)
    ensures EmailService.SendEmailViaApi(fetched).Ok? <==> ContactService.SubmitContact(env, fetched).result.Ok?
    ensures EmailService.SendEmailViaApi(fetched).Ok? ==>
      EmailService.SendEmailViaApi(fetched) == ContactService.SubmitContact(env, fetched).result
  {
  }
}

=== FILE: contact_admin.dfy ===
/** The admin page in `src/components/ContactAdmin.tsx`: the status badge
    colour, where the message list comes from, and its own relay form, which
    differs from the visitor form in how it treats a reply that is not JSON. */
module ContactAdmin {
  import opened Wrappers
  import opened Js
  import opened Http
  import MessageStore
  import ContactService
  import ContactForm

  type FormData = ContactForm.FormData

  /** `getStatusColor` */
  function StatusColor(status: string): (c: string)
    ensures status == "new" ==> c == "bg-blue-500"
    ensures status == "read" ==> c == "bg-yellow-500"
    ensures status == "replied" ==> c == "bg-green-500"
    ensures status !in {"new", "read", "replied"} ==> c == "bg-gray-500"
  {
    match status
    case "new" => "bg-blue-500"
    case "read" => "bg-yellow-500"
    case "replied" => "bg-green-500"
    case _ => "bg-gray-500"
  }

  /** Each of the three stored statuses gets its own colour, never the
      fallback grey. */
  lemma StatusColorsDistinct(a: MessageStore.Status, b: MessageStore.Status)
    ensures StatusColor(MessageStore.StatusName(a)) != "bg-gray-500"
    ensures a != b ==> StatusColor(MessageStore.StatusName(a)) != StatusColor(MessageStore.StatusName(b))
  {
  }

  /** The page state `fetchMessages` leaves behind. */
  datatype View = View(messages: JsValue, error: Option<string>, loading: bool)

  /** `fetchMessages`: a stored localStorage list wins; otherwise the API
      listing's `data`, or `[]` when that is falsy. Any error is recorded and
      the previous messages are kept; a success leaves an earlier error in
      place, since nothing clears it. Loading always ends. */
  function FetchMessages(stored: ContactService.Stored, env: map<string, string>, fetched: Fetched,
                         prior: JsValue, priorError: Option<string>): (r: View)
    ensures !r.loading
    ensures stored.Parsed? ==> r == View(stored.value, priorError, false)
    ensures stored.Unparseable? ==> r == View(prior, Some(stored.error), false)
    ensures stored.Missing? ==>
      var api := ContactService.GetContacts(env, fetched).result;
      && (api.Err? ==> r == View(prior, Some(api.error), false))
      && (api.Ok? && !IsNullish(api.value) ==>
            r.error == priorError &&
            r.messages == (if Truthy(Get(api.value, "data")) then Get(api.value, "data") else Arr([])))
      && (api.Ok? && IsNullish(api.value) ==> r.error.Some? && r.messages == prior)
  {
    match stored
    case Parsed(v) => View(v, priorError, false)
    case Unparseable(e) => View(prior, Some(e), false)
    case Missing =>
      match ContactService.GetContacts(env, fetched).result
      case Err(e) => View(prior, Some(e), false)
      case Ok(res) =>
        if IsNullish(res) then
          View(prior, Some("Cannot read properties of " + ToJsString(res) + " (reading 'data')"), false)
        else View(Or(Get(res, "data"), Arr([])), priorError, false)
  }

  const AntiBotMessage: string :=
    "Request was blocked (anti-bot). Please try from the website form in a normal browser, or use the Web3Forms AJAX endpoint from client-side only."
  const FallbackDescription: string := "Your message could not be sent. Please try again later."
  const MissingKeyToast: ContactForm.Toast :=
    ContactForm.Toast(true, "Missing Web3Forms key", "Set VITE_WEB3FORMS_ACCESS_KEY in your .env file and restart the dev server.")
  const SentToast: ContactForm.Toast := ContactForm.Toast(false, "Message sent!", "Your message was sent to your email successfully.")

  /** How `handleSubmitToWeb3Forms` judges the reply. A body that is not JSON
      reads as `null`; the fallback text names an anti-bot block when the raw
      body contains "Just a moment". */
  function Verdict(fetched: Fetched): (r: Outcome)
    ensures r.Pass? <==>
      fetched.Received? && IsOk(fetched.reply) && fetched.reply.json.Ok? && Truthy(Get(fetched.reply.json.value, "success"))
    ensures fetched.NetworkFailure? ==> r == Fail(fetched.message)
    ensures fetched.Received? && fetched.reply.json.Err? ==>
      r == Fail(if Includes(fetched.reply.raw, "Just a moment") then AntiBotMessage else ContactForm.SendFailureMessage)
    ensures fetched.Received? && fetched.reply.json.Ok? && r.Fail? ==>
      r.error == ContactForm.ReplyErrorText(fetched.reply.json.value,
        if Includes(fetched.reply.raw, "Just a moment") then AntiBotMessage else ContactForm.SendFailureMessage)
  {
    match fetched
    case NetworkFailure(m) => Fail(m)
    case Received(reply) =>
      var data := match reply.json case Ok(v) => v case Err(_) => Null;
      if !IsOk(reply) || !Truthy(Get(data, "success")) then
        Fail(ContactForm.ReplyErrorText(data,
          if Includes(reply.raw, "Just a moment") then AntiBotMessage else ContactForm.SendFailureMessage))
      else Pass
  }

  /** The two forms agree on which replies are successes; they differ only in
      the error text. */
  lemma VerdictsAgree(fetched: Fetched)
    ensures Verdict(fetched).Pass? <==> ContactForm.Verdict(fetched).Pass?
  {
  }

  /** `handleSubmitToWeb3Forms`: like the visitor form, but the payload names
      the page, and an empty error text falls back to a generic description. */
  function HandleSubmit(f: FormData, accessKey: Option<string>, wasSubmitting: bool, href: string, fetched: Fetched): (r: ContactForm.SubmitRun)
    ensures !ContactForm.Configured(accessKey) ==> r == ContactForm.SubmitRun(None, MissingKeyToast, f, wasSubmitting)
    ensures ContactForm.Configured(accessKey) ==>
      && r.sent == Some(ContactForm.BuildPayload(accessKey.value, f, Some(href)))
      && !r.submitting
      && (Verdict(fetched).Pass? ==> r.form == ContactForm.EmptyForm() && r.toast == SentToast)
      && (Verdict(fetched).Fail? ==>
            && r.form == f && r.toast.destructive && r.toast.title == "Something went wrong"
            && r.toast.description == (if |Verdict(fetched).error| > 0 then Verdict(fetched).error else FallbackDescription))
  {
    if !ContactForm.Configured(accessKey) then ContactForm.SubmitRun(None, MissingKeyToast, f, wasSubmitting)
    else
      var payload := ContactForm.BuildPayload(accessKey.value, f, Some(href));
      match Verdict(fetched)
      case Pass => ContactForm.SubmitRun(Some(payload), SentToast, ContactForm.EmptyForm(), false)
      case Fail(m) =>
        var description := ToJsString(Or(Str(m), Str(FallbackDescription)));
        ContactForm.SubmitRun(Some(payload), ContactForm.Toast(true, "Something went wrong", description), f, false)
  }

  /** The admin form and the visitor form leave the same form and
      `isSubmitting` behind and agree on success; the admin payload differs
      only in naming the page. */
  lemma SubmitsAgree(f: FormData, accessKey: Option<string>, wasSubmitting: bool, href: string, fetched: Fetched)
    ensures var admin := HandleSubmit(f, accessKey, wasSubmitting, href, fetched);
      var visitor := ContactForm.HandleSubmit(f, accessKey, wasSubmitting, fetched);
      && admin.form == visitor.form
      && admin.submitting == visitor.submitting
      && admin.sent.Some? == visitor.sent.Some?
      && (admin.sent.Some? ==> admin.sent.value == visitor.sent.value.(page := Some(href)))
      && admin.toast.destructive == visitor.toast.destructive
  {
    VerdictsAgree(fetched);
  }
}

=== FILE: contact_api.dfy ===
/** The serverless `api/contact.ts` handler: CORS headers, method dispatch,
    the required-field check, saving, a best-effort notification mail through
    `sendEmailViaAPI`, and the shape of the response. */
module ContactApi {
  import opened Wrappers
  import opened Js
  import opened Http
  import opened MessageStore
  import opened ObjectIds
  import Validation
  import EmailService

  datatype Request = Request(httpMethod: string, body: JsValue)

  /** One handler invocation: the store afterwards, the response, and the
      outcome of the notification attempt (`None` when none was made). */
  datatype HandlerRun = HandlerRun(db: Db, response: Response, email: Option<Result<JsValue>>)

  /** The three CORS headers set before anything else. */
  const CorsHeaders: seq<(string, string)> := [
    ("Access-Control-Allow-Origin", "*"),
    ("Access-Control-Allow-Methods", "POST, OPTIONS"),
    ("Access-Control-Allow-Headers", "Content-Type")
  ]

  /** The TypeError message for `formData.name` when the body is `null` or `undefined`. */
  function ReadNameError(body: JsValue): string {
    "Cannot read properties of " + (if body.Null? then "null" else "undefined") + " (reading 'name')"
  }

  function ServerError(details: string): Response {
    Json(CorsHeaders, 500, map["error" := Str("Internal server error"), "details" := Str(details)])
  }

  /** `handler(req, res)`; `now` and `id` are the timestamp and ObjectId the
      insert would use, `env` the store's environment and `emailFetch` what the
      notification request would settle to. */
  function Handler(db: Db, req: Request, now: nat, id: ObjectId, env: Env, emailFetch: Fetched): (r: HandlerRun)
    ensures r.response.headers == CorsHeaders
    ensures req.httpMethod == "OPTIONS" ==> r == HandlerRun(db, Response(200, CorsHeaders, None), None)
    ensures req.httpMethod != "OPTIONS" && req.httpMethod != "POST" ==>
      r == HandlerRun(db, Json(CorsHeaders, 405, map["error" := Str("Method not allowed")]), None)
    ensures req.httpMethod == "POST" && IsNullish(req.body) ==>
      r == HandlerRun(db, ServerError(ReadNameError(req.body)), None)
    ensures req.httpMethod == "POST" && !IsNullish(req.body) && Validation.Validate(req.body).None? ==>
      r == HandlerRun(db, Json(CorsHeaders, 400, map["error" := Str("All fields are required")]), None)
    ensures req.httpMethod == "POST" && Validation.Validate(req.body).Some? ==>
      var saved := Save(db, Validation.FieldsOf(req.body), now, id, env);
      && r.db == saved.db
      && (saved.result.Err? ==> r.response == ServerError(saved.result.error) && r.email.None?)
      && (saved.result.Ok? ==>
            && r.response.status == 200
            && r.response.body == Some(Obj(map["success" := Bool(true),
                                               "message" := Str("Contact message saved successfully"),
                                               "id" := Str(IdText(id))]))
            && r.email == Some(EmailService.SendEmailViaApi(emailFetch)))
  {
    if req.httpMethod == "OPTIONS" then HandlerRun(db, Response(200, CorsHeaders, None), None)
    else if req.httpMethod != "POST" then
      HandlerRun(db, Json(CorsHeaders, 405, map["error" := Str("Method not allowed")]), None)
    else if IsNullish(req.body) then HandlerRun(db, ServerError(ReadNameError(req.body)), None)
    else match Validation.Validate(req.body)
      case None => HandlerRun(db, Json(CorsHeaders, 400, map["error" := Str("All fields are required")]), None)
      case Some(fields) =>
        var saved := Save(db, fields, now, id, env);
        match saved.result
        case Err(e) => HandlerRun(saved.db, ServerError(e), None)
        case Ok(reply) =>
          var email := EmailService.SendEmailViaApi(emailFetch);
          HandlerRun(saved.db, Json(CorsHeaders, 200, map["success" := Bool(true),
                                                         "message" := Str("Contact message saved successfully"),
                                                         "id" := Str(reply.id)]), Some(email))
  }

  /** The notification is best effort: its outcome changes neither the
      response nor the store. */
  lemma EmailDoesNotAffectOutcome(db: Db, req: Request, now: nat, id: ObjectId, env: Env, e1: Fetched, e2: Fetched)
    ensures Handler(db, req, now, id, env, e1).response == Handler(db, req, now, id, env, e2).response
    ensures Handler(db, req, now, id, env, e1).db == Handler(db, req, now, id, env, e2).db
  {
  }

  /** The caller learns whether the message was stored: a 200 reply to a POST
      means exactly one document was appended, with the submitted fields and
      status 'new', and the returned id names it; any other reply means the
      documents are unchanged. */
  lemma ResponseTellsTruth(db: Db, req: Request, now: nat, id: ObjectId, env: Env, emailFetch: Fetched)
    ensures var r := Handler(db, req, now, id, env, emailFetch);
      && (req.httpMethod == "POST" && r.response.status == 200 <==> r.db.records != db.records)
      && (r.db.records != db.records ==>
            && r.db.records == db.records + [Record(id, Validation.FieldsOf(req.body), now, New)]
            && r.response.body.Some?
            && ParseId(Get(r.response.body.value, "id").s) == Ok(id))
      && (r.email.Some? <==> r.db.records != db.records)
  {
    var r := Handler(db, req, now, id, env, emailFetch);
    IdTextRoundTrip(id);
    if req.httpMethod == "POST" && !IsNullish(req.body) && Validation.Validate(req.body).Some? {
      var saved := Save(db, Validation.FieldsOf(req.body), now, id, env);
      if saved.result.Ok? {
        assert |r.db.records| == |db.records| + 1;
      }
    }
  }
}

=== FILE: contact_form.dfy ===
/** The visitor-facing form in `src/components/Contact.tsx`: field edits and
    the submission to the Web3Forms relay, with the toast it ends in. */
module ContactForm {
  import opened Wrappers
  import opened Js
  import opened Http
  import EmailService

  type FormData = EmailService.FormData

  /** A toast notification: destructive (error) or not, title and description. */
  datatype Toast = Toast(destructive: bool, title: string, description: string)

  /** The JSON object posted to the relay; `page` is only sent by the admin form. */
  datatype Payload = Payload(
    accessKey: string, subject: string, fromName: string, name: string,
    email: string, message: string, botcheck: string, page: Option<string>)

  /** One submission: the payload posted (`None` when nothing was sent), the
      toast shown, the form afterwards, and `isSubmitting` afterwards. */
  datatype SubmitRun = SubmitRun(sent: Option<Payload>, toast: Toast, form: FormData, submitting: bool)

  const SubjectPrefix: string := "Portfolio Contact: "
  const InvalidResponseMessage: string := "Invalid response from email service"
  const SendFailureMessage: string := "Failed to send message"

  function EmptyForm(): FormData {
    EmailService.FormData("", "", "", "")
  }

  /** `handleChange`: `{ ...prev, [name]: value }`. An input name other than
      the four fields adds a key no one reads, so the four fields stay as they were. */
  function HandleChange(f: FormData, field: string, value: string): (r: FormData)
    ensures r.name == (if field == "name" then value else f.name)
    ensures r.email == (if field == "email" then value else f.email)
    ensures r.subject == (if field == "subject" then value else f.subject)
    ensures r.message == (if field == "message" then value else f.message)
  {
    match field
    case "name" => f.(name := value)
    case "email" => f.(email := value)
    case "subject" => f.(subject := value)
    case "message" => f.(message := value)
    case _ => f
  }

  /** `!accessKey`: the key is unset or empty. */
  predicate Configured(accessKey: Option<string>) {
    accessKey.Some? && |accessKey.value| > 0
  }

  /** The relay payload: prefixed subject, sender name twice, empty honeypot. */
  function BuildPayload(accessKey: string, f: FormData, page: Option<string>): (p: Payload)
    ensures p.subject == SubjectPrefix + f.subject && p.subject[|SubjectPrefix|..] == f.subject
    ensures p.name == f.name && p.fromName == f.name && p.email == f.email && p.message == f.message
    ensures p.botcheck == "" && p.accessKey == accessKey && p.page == page
  {
    Payload(accessKey, SubjectPrefix + f.subject, f.name, f.name, f.email, f.message, "", page)
  }

  /** The error text for a rejected reply: `data?.message || data?.error || fallback`, as a string. */
  function ReplyErrorText(data: JsValue, fallback: string): (m: string)
    ensures Truthy(Get(data, "message")) ==> m == ToJsString(Get(data, "message"))
    ensures !Truthy(Get(data, "message")) && Truthy(Get(data, "error")) ==> m == ToJsString(Get(data, "error"))
    ensures !Truthy(Get(data, "message")) && !Truthy(Get(data, "error")) ==> m == fallback
  {
    ToJsString(Or(Get(data, "message"), Or(Get(data, "error"), Str(fallback))))
  }

  /** How `handleSubmit` judges the relay's reply: `Pass` when the status is
      2xx and the body parses to something with a truthy `success`, otherwise
      the message of the error it throws. */
  function Verdict(fetched: Fetched): (r: Outcome)
    ensures r.Pass? <==>
      fetched.Received? && IsOk(fetched.reply) && fetched.reply.json.Ok? && Truthy(Get(fetched.reply.json.value, "success"))
    ensures fetched.NetworkFailure? ==> r == Fail(fetched.message)
    ensures fetched.Received? && fetched.reply.json.Err? ==> r == Fail(InvalidResponseMessage)
    ensures fetched.Received? && fetched.reply.json.Ok? && r.Fail? ==>
      r.error == ReplyErrorText(fetched.reply.json.value, SendFailureMessage)
  {
    match fetched
    case NetworkFailure(m) => Fail(m)
    case Received(reply) =>
      match reply.json
      case Err(_) => Fail(InvalidResponseMessage)
      case Ok(data) =>
        if !IsOk(reply) || !Truthy(Get(data, "success")) then Fail(ReplyErrorText(data, SendFailureMessage))
        else Pass
  }

  const MissingKeyToast: Toast := Toast(true, "Configuration error", "Email service is not configured.")
  const SentToast: Toast := Toast(false, "Message sent!", "Thanks for reaching out. I'll get back to you soon.")

  /** `handleSubmit`: without an access key only a configuration toast is
      shown; otherwise the payload is posted, success clears the form, and
      every completed attempt ends with `isSubmitting` false. */
  function HandleSubmit(f: FormData, accessKey: Option<string>, wasSubmitting: bool, fetched: Fetched): (r: SubmitRun)
    ensures !Configured(accessKey) ==> r == SubmitRun(None, MissingKeyToast, f, wasSubmitting)
    ensures Configured(accessKey) ==>
      && r.sent == Some(BuildPayload(accessKey.value, f, None))
      && !r.submitting
      && (Verdict(fetched).Pass? ==> r.form == EmptyForm() && r.toast == SentToast)
      && (Verdict(fetched).Fail? ==>
            r.form == f && r.toast == Toast(true, "Something went wrong", Verdict(fetched).error))
  {
    if !Configured(accessKey) then SubmitRun(None, MissingKeyToast, f, wasSubmitting)
    else
      var payload := BuildPayload(accessKey.value, f, None);
      match Verdict(fetched)
      case Pass => SubmitRun(Some(payload), SentToast, EmptyForm(), false)
      case Fail(m) => SubmitRun(Some(payload), Toast(true, "Something went wrong", m), f, false)
  }

  /** Editing one field and then another leaves both edits in place when the
      fields differ. */
  lemma ChangesCommute(f: FormData, a: string, va: string, b: string, vb: string)
    requires a != b
    ensures HandleChange(HandleChange(f, a, va), b, vb) == HandleChange(HandleChange(f, b, vb), a, va)
  {
  }

  /** A failed submission keeps the form, so sending again posts exactly the
      same payload, and a successful retry clears the form. */
  lemma RetryResendsSamePayload(f: FormData, accessKey: Option<string>, first: Fetched, second: Fetched)
    requires Configured(accessKey) && Verdict(first).Fail?
    ensures var r1 := HandleSubmit(f, accessKey, false, first);
      var r2 := HandleSubmit(r1.form, accessKey, r1.submitting, second);
      && r2.sent == r1.sent
      && (Verdict(second).Pass? ==> r2.form == EmptyForm())
      && (Verdict(second).Fail? ==> r2.form == f)
  {
  }
}

=== FILE: contact_service.dfy ===
/** The browser-side `ContactService` in `src/services/contactService.ts`:
    posting a form to the backend, the localStorage variant `submitContactDirect`,
    and fetching the admin listing. */
module ContactService {
  import opened Wrappers
  import opened Js
  import opened Http
  import EmailService

  type FormData = EmailService.FormData

  const DefaultApiBase: string := "http://localhost:3001/api"
  const SubmitFailureMessage: string := "Failed to submit contact form"
  const SubmitSuccessMessage: string := "Contact form submitted successfully"

  /** `import.meta.env.VITE_API_URL || 'http://localhost:3001/api'` */
  function ApiBase(env: map<string, string>): (r: string)
    ensures ("VITE_API_URL" !in env || env["VITE_API_URL"] == "") ==> r == DefaultApiBase
    ensures "VITE_API_URL" in env && env["VITE_API_URL"] != "" ==> r == env["VITE_API_URL"]
  {
    EnvOr(env, "VITE_API_URL", DefaultApiBase)
  }

  /** `JSON.stringify(formData)` as the server parses it. */
  function FormBody(f: FormData): (b: JsValue)
    ensures Get(b, "name") == Str(f.name) && Get(b, "email") == Str(f.email)
    ensures Get(b, "subject") == Str(f.subject) && Get(b, "message") == Str(f.message)
  {
    Obj(map["name" := Str(f.name), "email" := Str(f.email), "subject" := Str(f.subject), "message" := Str(f.message)])
  }

  /** A request the service makes: the URL it fetches and the call's result. */
  datatype Call = Call(url: string, result: Result<JsValue>)

  /** `submitContact`: POST to `<base>/contact`; any failure (network, status
      outside 200-299, unparsable body) becomes "Failed to submit contact form". */
  function SubmitContact(env: map<string, string>, fetched: Fetched): (r: Call)
    ensures r.url == ApiBase(env) + "/contact"
    ensures r.result.Ok? <==> fetched.Received? && IsOk(fetched.reply) && fetched.reply.json.Ok?
    ensures r.result.Ok? ==> r.result.value == fetched.reply.json.value
    ensures r.result.Err? ==> r.result.error == SubmitFailureMessage
  {
    var url := ApiBase(env) + "/contact";
    match fetched
    case NetworkFailure(_) => Call(url, Err(SubmitFailureMessage))
    case Received(reply) =>
      if !IsOk(reply) then Call(url, Err(SubmitFailureMessage))
      else match reply.json
        case Err(_) => Call(url, Err(SubmitFailureMessage))
        case Ok(v) => Call(url, Ok(v))
  }

  /** `getContacts`: GET `<base>/contacts`; a status outside 200-299 throws
      "HTTP error! status: <code>", other failures are rethrown unchanged. */
  function GetContacts(env: map<string, string>, fetched: Fetched): (r: Call)
    ensures r.url == ApiBase(env) + "/contacts"
    ensures fetched.NetworkFailure? ==> r.result == Err(fetched.message)
    ensures fetched.Received? && !IsOk(fetched.reply) ==>
      r.result == Err("HTTP error! status: " + Decimal(fetched.reply.status))
    ensures fetched.Received? && IsOk(fetched.reply) ==> r.result == fetched.reply.json
  {
    var url := ApiBase(env) + "/contacts";
    match fetched
    case NetworkFailure(m) => Call(url, Err(m))
    case Received(reply) =>
      if !IsOk(reply) then Call(url, Err("HTTP error! status: " + Decimal(reply.status)))
      else Call(url, reply.json)
  }

  /** The `contacts` entry of localStorage, as `JSON.parse` reads it:
      missing (or empty), parsed, or not JSON. */
  datatype Stored = Missing | Parsed(value: JsValue) | Unparseable(error: string)

  /** The record `submitContactDirect` appends. */
  function NewContact(form: FormData, now: nat, isoNow: string): JsValue {
    Obj(map[
      "id" := Str(NatDecimal(now)),
      "name" := Str(form.name),
      "email" := Str(form.email),
      "subject" := Str(form.subject),
      "message" := Str(form.message),
      "createdAt" := Str(isoNow),
      "status" := Str("new")])
  }

  /** The list `contacts.push` can extend: the parsed array, `[]` when the
      entry is absent, and `None` when parsing fails or yields a non-array. */
  function StoredList(stored: Stored): (r: Option<seq<JsValue>>)
    ensures stored.Missing? ==> r == Some([])
    ensures r.Some? && !stored.Missing? ==> stored == Parsed(Arr(r.value))
    ensures stored.Parsed? && stored.value.Arr? ==> r.Some?
  {
    match stored
    case Missing => Some([])
    case Parsed(Arr(items)) => Some(items)
    case _ => None
  }

  /** A `submitContactDirect` call: the localStorage entry afterwards and the reply. */
  datatype DirectRun = DirectRun(stored: Stored, reply: JsValue)

  function DirectFailure(): JsValue {
    Obj(map["success" := Bool(false), "error" := Str(SubmitFailureMessage)])
  }

  /** `submitContactDirect`: read the stored list (an absent entry reads as
      `[]`), push the new contact, write the list back. Reading something that
      is not an array, or a failing write, is caught and reported; nothing is
      thrown. `now` is `Date.now()`, `isoNow` its ISO text. */
  function SubmitContactDirect(stored: Stored, form: FormData, now: nat, isoNow: string, write: Outcome): (r: DirectRun)
    ensures Truthy(Get(r.reply, "success")) <==> write.Pass? && StoredList(stored).Some?
    ensures Truthy(Get(r.reply, "success")) ==>
      && r.reply == Obj(map["success" := Bool(true), "message" := Str(SubmitSuccessMessage)])
      && r.stored == Parsed(Arr(StoredList(stored).value + [NewContact(form, now, isoNow)]))
    ensures !Truthy(Get(r.reply, "success")) ==> r == DirectRun(stored, DirectFailure())
  {
    match StoredList(stored)
    case None => DirectRun(stored, DirectFailure())
    case Some(items) =>
      if write.Fail? then DirectRun(stored, DirectFailure())
      else DirectRun(Parsed(Arr(items + [NewContact(form, now, isoNow)])),
                     Obj(map["success" := Bool(true), "message" := Str(SubmitSuccessMessage)]))
  }

  /** A successful direct submission keeps every earlier contact in place and
      adds exactly one at the end, carrying the four fields, status 'new' and
      an id that is the decimal text of the submission time. */
  lemma DirectAppendsOne(items: seq<JsValue>, form: FormData, now: nat, isoNow: string)
    ensures var r := SubmitContactDirect(Parsed(Arr(items)), form, now, isoNow, Pass);
      && r.stored.Parsed? && r.stored.value.Arr?
      && |r.stored.value.items| == |items| + 1
      && r.stored.value.items[..|items|] == items
      && var added := r.stored.value.items[|items|];
         && Get(added, "name") == Str(form.name) && Get(added, "email") == Str(form.email)
         && Get(added, "subject") == Str(form.subject) && Get(added, "message") == Str(form.message)
         && Get(added, "status") == Str("new")
         && Get(added, "id").Str? && DecimalValue(Get(added, "id").s) == now
  {
    NatDecimalRoundTrip(now);
    var r := SubmitContactDirect(Parsed(Arr(items)), form, now, isoNow, Pass);
    assert r.stored.value.items == items + [NewContact(form, now, isoNow)];
  }
}

=== FILE: email_service.dfy ===
/** `src/lib/emailService.ts`: the two mails `sendContactEmail` composes and
    sends through a nodemailer transport, and the `sendEmailViaAPI` alternative.
    The environment is a map from variable name to value (absent means `undefined`). */
module EmailService {
  import opened Wrappers
  import opened Js
  import opened Http

  /** The typed form fields the mail functions receive. */
  datatype FormData = FormData(name: string, email: string, subject: string, message: string)

  /** The nodemailer transport configuration. */
  datatype TransportConfig = TransportConfig(service: string, user: string, pass: string)

  /** One `sendMail` options object; `from` is `undefined` when the user variable is unset. */
  datatype Mail = Mail(from: Option<string>, to: string, subject: string, html: string)

  const DefaultOwner: string := "ParthPanchal5447@gmail.com"
  const OwnerSubjectPrefix: string := "New Contact Form Submission: "
  const SenderSubject: string := "Thank you for contacting me!"
  const ApiFailureMessage: string := "Failed to send email"

  /** `createTransporter`'s configuration: service defaults to gmail, credentials to "". */
  function Transport(env: map<string, string>): (t: TransportConfig)
    ensures ("VITE_EMAIL_SERVICE" !in env || env["VITE_EMAIL_SERVICE"] == "") ==> t.service == "gmail"
    ensures "VITE_EMAIL_SERVICE" in env && env["VITE_EMAIL_SERVICE"] != "" ==> t.service == env["VITE_EMAIL_SERVICE"]
    ensures ("VITE_EMAIL_USER" !in env || env["VITE_EMAIL_USER"] == "") ==> t.user == ""
    ensures ("VITE_EMAIL_PASSWORD" !in env || env["VITE_EMAIL_PASSWORD"] == "") ==> t.pass == ""
    ensures "VITE_EMAIL_USER" in env ==> t.user == env["VITE_EMAIL_USER"]
    ensures "VITE_EMAIL_PASSWORD" in env ==> t.pass == env["VITE_EMAIL_PASSWORD"]
  {
    TransportConfig(
      EnvOr(env, "VITE_EMAIL_SERVICE", "gmail"),
      EnvOr(env, "VITE_EMAIL_USER", ""),
      EnvOr(env, "VITE_EMAIL_PASSWORD", ""))
  }

  /** `s.replace(/\n/g, "<br>")` */
  function NewlinesToBr(s: string): string {
    if |s| == 0 then ""
    else (if s[0] == '\n' then "<br>" else [s[0]]) + NewlinesToBr(s[1..])
  }

  /** Replacing distributes over concatenation. */
  lemma {:induction false} NewlinesToBrAppend(a: string, b: string)
    ensures NewlinesToBr(a + b) == NewlinesToBr(a) + NewlinesToBr(b)
    decreases |a|
  {
    if |a| > 0 {
      assert (a + b)[1..] == a[1..] + b;
      NewlinesToBrAppend(a[1..], b);
    } else {
      assert a + b == b;
    }
  }

  /** A newline becomes `<br>`; every other single character is kept as it is. */
  lemma NewlinesToBrChar(c: char)
    ensures NewlinesToBr([c]) == (if c == '\n' then "<br>" else [c])
  {
    assert [c][1..] == "";
  }

  /** The replaced text has no newline left, and grows by three characters per newline. */
  lemma {:induction false} NewlinesToBrShape(s: string)
    ensures '\n' !in NewlinesToBr(s)
    ensures |NewlinesToBr(s)| == |s| + 3 * multiset(s)['\n']
    decreases |s|
  {
    if |s| > 0 {
      NewlinesToBrShape(s[1..]);
      assert s == [s[0]] + s[1..];
      assert multiset(s) == multiset{s[0]} + multiset(s[1..]);
    }
  }

  /** Text without newlines is left unchanged. */
  lemma {:induction false} NewlinesToBrIdentity(s: string)
    requires '\n' !in s
    ensures NewlinesToBr(s) == s
    decreases |s|
  {
    if |s| > 0 {
      NewlinesToBrIdentity(s[1..]);
    }
  }

  // The fixed text between the interpolations of the two HTML templates.
  const OwnerHead: string := "\n        <h1>New message from your portfolio website</h1>\n        <p><strong>From:</strong> "
  const OwnerAfterEmail: string := ")</p>\n        <p><strong>Subject:</strong> "
  const OwnerAfterSubject: string := "</p>\n        <h3>Message:</h3>\n        <p>"
  const OwnerTail: string := "</p>\n      "
  const SenderHead: string := "\n        <h1>Thank you for reaching out!</h1>\n        <p>Hello "
  const SenderAfterName: string := ",</p>\n        <p>I appreciate you taking the time to contact me. I've received your message and will get back to you as soon as possible.</p>\n        <p>Here's a copy of your message:</p>\n        <p><strong>Subject:</strong> "
  const SenderAfterSubject: string := "</p>\n        <p>"
  const SenderTail: string := "</p>\n        <p>Best regards,<br>Parth Panchal</p>\n      "

  /** The HTML body of the mail to the site owner, as template pieces. */
  function OwnerHtml(form: FormData): seq<string> {
    [OwnerHead, form.name, " (", form.email, OwnerAfterEmail, form.subject, OwnerAfterSubject,
     NewlinesToBr(form.message), OwnerTail]
  }

  /** The HTML body of the acknowledgement, as template pieces. */
  function SenderHtml(form: FormData): seq<string> {
    [SenderHead, form.name, SenderAfterName, form.subject, SenderAfterSubject,
     NewlinesToBr(form.message), SenderTail]
  }

  /** `process.env.VITE_EMAIL_USER`, passed through as it is. */
  function From(env: map<string, string>): Option<string> {
    if "VITE_EMAIL_USER" in env then Some(env["VITE_EMAIL_USER"]) else None
  }

  /** The mail to the site owner. */
  function OwnerMail(env: map<string, string>, form: FormData): (m: Mail)
    ensures m.to == (if "VITE_OWNER_EMAIL" in env && |env["VITE_OWNER_EMAIL"]| > 0 then env["VITE_OWNER_EMAIL"] else DefaultOwner)
    ensures m.subject == OwnerSubjectPrefix + form.subject
    ensures m.from == (if "VITE_EMAIL_USER" in env then Some(env["VITE_EMAIL_USER"]) else None)
    ensures Includes(m.html, NewlinesToBr(form.message))
    ensures Includes(m.html, form.name) && Includes(m.html, form.email) && Includes(m.html, form.subject)
  {
    var parts := OwnerHtml(form);
    IncludesPiece(parts, 1);
    IncludesPiece(parts, 3);
    IncludesPiece(parts, 5);
    IncludesPiece(parts, 7);
    Mail(From(env), EnvOr(env, "VITE_OWNER_EMAIL", DefaultOwner), OwnerSubjectPrefix + form.subject, Concat(parts))
  }

  /** The acknowledgement to the person who wrote. */
  function SenderMail(env: map<string, string>, form: FormData): (m: Mail)
    ensures m.to == form.email
    ensures m.subject == SenderSubject
    ensures m.from == (if "VITE_EMAIL_USER" in env then Some(env["VITE_EMAIL_USER"]) else None)
    ensures Includes(m.html, NewlinesToBr(form.message))
    ensures Includes(m.html, form.name) && Includes(m.html, form.subject)
  {
    var parts := SenderHtml(form);
    IncludesPiece(parts, 1);
    IncludesPiece(parts, 3);
    IncludesPiece(parts, 5);
    Mail(From(env), form.email, SenderSubject, Concat(parts))
  }

  /** A `sendContactEmail` call: the two mails handed to the transport and its result. */
  datatype EmailRun = EmailRun(owner: Mail, sender: Mail, result: Result<JsValue>)

  /** `sendContactEmail`: both mails are sent; the result is `{ success: true }`
      only when both sends succeed, otherwise the failure is rethrown. */
  function SendContactEmail(env: map<string, string>, form: FormData, ownerSend: Outcome, senderSend: Outcome): (r: EmailRun)
    ensures r.owner == OwnerMail(env, form) && r.sender == SenderMail(env, form)
    ensures r.result.Ok? <==> ownerSend.Pass? && senderSend.Pass?
    ensures r.result.Ok? ==> r.result.value == Obj(map["success" := Bool(true)])
    ensures r.result.Err? ==> Fail(r.result.error) in {ownerSend, senderSend}
  {
    var result :=
      if ownerSend.Fail? then Err(ownerSend.error)
      else if senderSend.Fail? then Err(senderSend.error)
      else Ok(Obj(map["success" := Bool(true)]));
    EmailRun(OwnerMail(env, form), SenderMail(env, form), result)
  }

  /** The outcome depends only on the two sends, never on the form or the
      configuration; changing the owner's send alone cannot turn a failure
      of the submitter's send into success. */
  lemma SendOutcomeDependsOnlyOnSends(env: map<string, string>, form: FormData, env2: map<string, string>, form2: FormData,
                                     ownerSend: Outcome, senderSend: Outcome, ownerSend2: Outcome)
    ensures SendContactEmail(env, form, ownerSend, senderSend).result == SendContactEmail(env2, form2, ownerSend, senderSend).result
    ensures senderSend.Fail? ==> SendContactEmail(env, form, ownerSend2, senderSend).result.Err?
  {
  }

  /** `sendEmailViaAPI`: POST the form to `/api/send-email`; a rejected fetch or
      an unparsable body is rethrown, a reply outside 200-299 throws
      "Failed to send email", otherwise the parsed body is returned. */
  function SendEmailViaApi(fetched: Fetched): (r: Result<JsValue>)
    ensures fetched.NetworkFailure? ==> r == Err(fetched.message)
    ensures fetched.Received? && !IsOk(fetched.reply) ==> r == Err(ApiFailureMessage)
    ensures fetched.Received? && IsOk(fetched.reply) ==> r == fetched.reply.json
    ensures r.Ok? <==> fetched.Received? && IsOk(fetched.reply) && fetched.reply.json.Ok?
  {
    match fetched
    case NetworkFailure(m) => Err(m)
    case Received(reply) =>
      if !IsOk(reply) then Err(ApiFailureMessage) else reply.json
  }
}

=== FILE: express_server.dfy ===
/** The Express server in `server/index.ts`: `POST /api/contact` validates and
    saves without sending any notification, `GET /api/contacts` lists the
    collection. Its `server/mongodb.js` store is not part of this model; it is
    taken to behave as `MessageStore`. */
module ExpressServer {
  import opened Wrappers
  import opened Js
  import opened Http
  import opened MessageStore
  import opened ObjectIds
  import Validation

  /** The TypeError message for destructuring a `null` or `undefined` body. */
  function DestructureError(body: JsValue): string {
    "Cannot destructure property 'name' of 'req.body' as it is " + (if body.Null? then "null." else "undefined.")
  }

  function Failure(error: string, details: string): Response {
    Json([], 500, map["success" := Bool(false), "error" := Str(error), "details" := Str(details)])
  }

  datatype ServerRun = ServerRun(db: Db, response: Response)

  /** The `POST /api/contact` route. `express.json()` answers a JSON `null` or
      primitive body with a 400 before the route runs, so a `null` or
      `undefined` body here is one the parser left unset, for example a
      request without a JSON content type. */
  function PostContact(db: Db, body: JsValue, now: nat, id: ObjectId, env: Env): (r: ServerRun)
    ensures IsNullish(body) ==> r == ServerRun(db, Failure("Internal server error", DestructureError(body)))
    ensures !IsNullish(body) && Validation.Validate(body).None? ==>
      r == ServerRun(db, Json([], 400, map["success" := Bool(false), "error" := Str("All fields are required")]))
    ensures Validation.Validate(body).Some? ==>
      var saved := Save(db, Validation.FieldsOf(body), now, id, env);
      && r.db == saved.db
      && (saved.result.Err? ==> r.response == Failure("Internal server error", saved.result.error))
      && (saved.result.Ok? ==>
            r.response == Json([], 200, map["success" := Bool(true),
                                           "message" := Str("Contact form submitted successfully"),
                                           "id" := Str(IdText(id))]))
  {
    if IsNullish(body) then ServerRun(db, Failure("Internal server error", DestructureError(body)))
    else match Validation.Validate(body)
      case None => ServerRun(db, Json([], 400, map["success" := Bool(false), "error" := Str("All fields are required")]))
      case Some(fields) =>
        var saved := Save(db, fields, now, id, env);
        match saved.result
        case Err(e) => ServerRun(saved.db, Failure("Internal server error", e))
        case Ok(reply) =>
          ServerRun(saved.db, Json([], 200, map["success" := Bool(true),
                                               "message" := Str("Contact form submitted successfully"),
                                               "id" := Str(reply.id)]))
  }

  /** How `res.json` writes a stored document: the `_id` as hex text, the
      fields as stored, `createdAt` as its timestamp and the status by name. */
  function RecordJson(rec: Record): JsValue {
    Obj(map[
      "_id" := Str(IdText(rec.id)),
      "name" := rec.content.name,
      "email" := rec.content.email,
      "subject" := rec.content.subject,
      "message" := rec.content.message,
      "createdAt" := Num(rec.createdAt),
      "status" := Str(StatusName(rec.status))])
  }

  function RecordsJson(rs: seq<Record>): (r: JsValue)
    ensures r.Arr? && |r.items| == |rs|
    ensures forall i :: 0 <= i < |rs| ==> r.items[i] == RecordJson(rs[i])
  {
    Arr(seq(|rs|, i requires 0 <= i < |rs| => RecordJson(rs[i])))
  }

  /** The `GET /api/contacts` route: the whole listing, newest first, or a 500
      naming the failure. The store is never changed. */
  function GetContacts(db: Db, env: Env): (r: ServerRun)
    ensures r.db.records == db.records
    ensures r.response.status == 200 || r.response.status == 500
    ensures r.response.status == 200 <==> List(db, env).result.Ok?
    ensures r.response.status == 200 ==>
      exists listed: seq<Record> {:trigger RecordsJson(listed)} ::
        && multiset(listed) == multiset(db.records) && NewestFirst(listed)
        && r.response.body == Some(Obj(map["success" := Bool(true), "data" := RecordsJson(listed)]))
    ensures r.response.status == 500 ==>
      r.response == Failure("Failed to fetch contacts", List(db, env).result.error)
  {
    var listed := List(db, env);
    match listed.result
    case Ok(rs) => ServerRun(listed.db, Json([], 200, map["success" := Bool(true), "data" := RecordsJson(rs)]))
    case Err(e) => ServerRun(listed.db, Failure("Failed to fetch contacts", e))
  }

  /** With distinct timestamps the listing reply does not depend on how the
      database would break ties: it carries every newest-first arrangement of
      the documents, so listing twice with nothing written in between gives
      the same reply. */
  lemma GetContactsRepeatable(db: Db, env: Env, env2: Env, listed: seq<Record>)
    requires DistinctTimes(db.records)
    requires multiset(listed) == multiset(db.records) && NewestFirst(listed)
    requires GetContacts(db, env).response.status == 200
    ensures GetContacts(db, env).response.body == Some(Obj(map["success" := Bool(true), "data" := RecordsJson(listed)]))
    ensures GetContacts(GetContacts(db, env).db, env2).response.status == 200 ==>
      GetContacts(GetContacts(db, env).db, env2).response == GetContacts(db, env).response
  {
    ListingDetermined(db, env, listed);
    var db' := GetContacts(db, env).db;
    if List(db', env2).result.Ok? {
      ListingDetermined(db', env2, listed);
    }
  }

  /** Every reply of the route has a JSON body whose `success` is truthy
      exactly on the 200 reply. */
  lemma PostReplyShape(db: Db, body: JsValue, now: nat, id: ObjectId, env: Env)
    ensures var r := PostContact(db, body, now, id, env);
      && r.response.body.Some?
      && (r.response.status == 200 || r.response.status == 400 || r.response.status == 500)
      && (r.response.status == 200 <==> Truthy(Get(r.response.body.value, "success")))
  {
  }

  /** This route sends no notification and the caller learns whether the
      message was stored: a 200 reply means exactly one document was appended. */
  lemma PostTellsTruth(db: Db, body: JsValue, now: nat, id: ObjectId, env: Env)
    ensures var r := PostContact(db, body, now, id, env);
      && (r.response.status == 200 <==> r.db.records == db.records + [Record(id, Validation.FieldsOf(body), now, New)])
      && (r.response.status != 200 ==> r.db.records == db.records)
  {
    var r := PostContact(db, body, now, id, env);
    if r.response.status != 200 {
      assert |r.db.records| == |db.records|;
    }
  }
}

=== FILE: http.dfy ===
/** What the pipeline sees of HTTP: the replies `fetch` resolves to, and the
    responses the server handlers produce. */
module Http {
  import opened Wrappers
  import opened Js

  /** A reply received by `fetch`: its status code, its body text, and what
      `JSON.parse` makes of that text (`Err` carries the SyntaxError message). */
  datatype Reply = Reply(status: int, raw: string, json: Result<JsValue>)

  /** The settled `fetch` promise: rejected with a network error, or resolved with a reply. */
  datatype Fetched = NetworkFailure(message: string) | Received(reply: Reply)

  /** `response.ok`: the status lies in the range 200-299. */
  predicate IsOk(r: Reply) {
    200 <= r.status <= 299
  }

  /** A server response: status code, the headers set on it, and its body
      (`None` for `res.end()` without a body, otherwise the JSON sent). */
  datatype Response = Response(status: int, headers: seq<(string, string)>, body: Option<JsValue>)

  /** `res.status(code).json(body)` with the given headers. */
  function Json(headers: seq<(string, string)>, code: int, body: map<string, JsValue>): Response {
    Response(code, headers, Some(Obj(body)))
  }
}

=== FILE: js.dfy ===
/** The fragment of JavaScript value semantics the contact pipeline relies on:
    JSON-shaped values, truthiness, `a || b`, optional property reads,
    `String(v)` and `String.prototype.includes`. */
module Js {
  import opened Wrappers

  /** A JSON value as produced by `JSON.parse` or a request body parser,
      plus `undefined`. Numbers are integers here. */
  datatype JsValue =
    | Undefined
    | Null
    | Bool(b: bool)
    | Num(n: int)
    | Str(s: string)
    | Arr(items: seq<JsValue>)
    | Obj(props: map<string, JsValue>)

  /** JavaScript truthiness: `undefined`, `null`, `false`, `0` and `""` are falsy. */
  predicate Truthy(v: JsValue) {
    match v
    case Undefined => false
    case Null => false
    case Bool(b) => b
    case Num(n) => n != 0
    case Str(s) => |s| > 0
    case Arr(_) => true
    case Obj(_) => true
  }

  /** `a || b` */
  function Or(a: JsValue, b: JsValue): JsValue {
    if Truthy(a) then a else b
  }

  /** `v?.key`: reading a property of a parsed value; every other value has no such own property. */
  function Get(v: JsValue, key: string): JsValue {
    if v.Obj? && key in v.props then v.props[key] else Undefined
  }

  /** `obj.key` on an object that may be `null` or `undefined`: the read throws a TypeError. */
  predicate IsNullish(v: JsValue) {
    v.Undefined? || v.Null?
  }

  function DigitChar(d: nat): char
    requires d < 10
  {
    "0123456789"[d]
  }

  /** The decimal text of a natural number, as `Number.prototype.toString()` writes it. */
  function NatDecimal(n: nat): (r: string)
    ensures |r| > 0
    ensures forall i :: 0 <= i < |r| ==> '0' <= r[i] <= '9'
    ensures n > 0 ==> r[0] != '0'
  {
    if n < 10 then [DigitChar(n)] else NatDecimal(n / 10) + [DigitChar(n % 10)]
  }

  /** The value of a string of decimal digits. */
  function DecimalValue(s: string): nat
    requires forall i :: 0 <= i < |s| ==> '0' <= s[i] <= '9'
  {
    if |s| == 0 then 0 else DecimalValue(s[..|s| - 1]) * 10 + (s[|s| - 1] - '0') as nat
  }

  /** Reading back the decimal text of `n` gives `n`. */
  lemma {:induction false} NatDecimalRoundTrip(n: nat)
    ensures DecimalValue(NatDecimal(n)) == n
  {
    if n >= 10 {
      NatDecimalRoundTrip(n / 10);
      var t := NatDecimal(n);
      assert t[..|t| - 1] == NatDecimal(n / 10);
    }
  }

  /** Distinct naturals have distinct decimal texts. */
  lemma NatDecimalInjective(m: nat, n: nat)
    requires NatDecimal(m) == NatDecimal(n)
    ensures m == n
  {
    NatDecimalRoundTrip(m);
    NatDecimalRoundTrip(n);
  }

  /** `String(n)` for an integer `n` of magnitude below 10^21; from there on
      JavaScript switches to exponent form, which is not modelled. */
  function Decimal(n: int): string {
    if n < 0 then "-" + NatDecimal(-n) else NatDecimal(n)
  }

  /** `arr.join(",")` */
  function JoinComma(parts: seq<string>): string {
    if |parts| == 0 then "" else if |parts| == 1 then parts[0] else parts[0] + "," + JoinComma(parts[1..])
  }

  /** `String(v)`, the text `new Error(v).message` carries. Arrays join their
      elements with commas, writing `null` and `undefined` elements as "". */
  function ToJsString(v: JsValue): string
    decreases v
  {
    match v
    case Undefined => "undefined"
    case Null => "null"
    case Bool(b) => if b then "true" else "false"
    case Num(n) => Decimal(n)
    case Str(s) => s
    case Arr(items) =>
      JoinComma(seq(|items|, i requires 0 <= i < |items| =>
        if IsNullish(items[i]) then "" else ToJsString(items[i])))
    case Obj(_) => "[object Object]"
  }

  /** `s.includes(sub)` */
  function Includes(s: string, sub: string): bool
    decreases |s|
  {
    if |sub| > |s| then false
    else if s[..|sub|] == sub then true
    else Includes(s[1..], sub)
  }

  /** `sub` occurs in `s` starting at position `i`. */
  predicate OccursAt(s: string, sub: string, i: int) {
    0 <= i <= |s| - |sub| && s[i..i + |sub|] == sub
  }

  /** `Includes` holds exactly when `sub` occurs at some position of `s`. */
  lemma {:induction false} IncludesSpec(s: string, sub: string)
    ensures Includes(s, sub) <==> exists i :: OccursAt(s, sub, i)
    decreases |s|
  {
    if |sub| > |s| {
    } else if s[..|sub|] == sub {
      assert OccursAt(s, sub, 0);
    } else {
      IncludesSpec(s[1..], sub);
      if Includes(s, sub) {
        var i :| OccursAt(s[1..], sub, i);
        assert s[i + 1..i + 1 + |sub|] == s[1..][i..i + |sub|];
        assert OccursAt(s, sub, i + 1);
      } else {
        forall i | 0 <= i <= |s| - |sub|
          ensures !OccursAt(s, sub, i)
        {
          if i > 0 {
            assert s[i..i + |sub|] == s[1..][i - 1..i - 1 + |sub|];
            assert !OccursAt(s[1..], sub, i - 1);
          }
        }
      }
    }
  }

  /** A string is found inside any string that surrounds it. */
  lemma IncludesInfix(pre: string, sub: string, post: string)
    ensures Includes(pre + sub + post, sub)
  {
    var s := pre + sub + post;
    assert s[|pre|..|pre| + |sub|] == sub;
    assert OccursAt(s, sub, |pre|);
    IncludesSpec(s, sub);
  }

  /** A template literal: its pieces written one after another. */
  function Concat(parts: seq<string>): string {
    if |parts| == 0 then "" else parts[0] + Concat(parts[1..])
  }

  /** A template splits around any of its pieces. */
  lemma {:induction false} ConcatSplit(parts: seq<string>, k: nat)
    requires k < |parts|
    ensures Concat(parts) == Concat(parts[..k]) + parts[k] + Concat(parts[k + 1..])
  {
    if k > 0 {
      ConcatSplit(parts[1..], k - 1);
      assert parts[1..][..k - 1] == parts[1..k];
      assert parts[1..][k..] == parts[k + 1..];
      assert Concat(parts[..k]) == parts[0] + Concat(parts[1..k]) by {
        assert parts[..k][1..] == parts[1..k];
      }
    } else {
      assert parts[..0] == [];
    }
  }

  /** Every piece of a template occurs in the text it produces. */
  lemma IncludesPiece(parts: seq<string>, k: nat)
    requires k < |parts|
    ensures Includes(Concat(parts), parts[k])
  {
    ConcatSplit(parts, k);
    IncludesInfix(Concat(parts[..k]), parts[k], Concat(parts[k + 1..]));
  }

  /** `process.env.KEY || fallback`: a missing or empty variable yields the fallback. */
  function EnvOr(env: map<string, string>, key: string, fallback: string): (r: string)
    ensures key in env && |env[key]| > 0 ==> r == env[key]
    ensures (key !in env || |env[key]| == 0) ==> r == fallback
  {
    ToJsString(Or(EnvValue(env, key), Str(fallback)))
  }

  /** `process.env.KEY` as a JavaScript value. */
  function EnvValue(env: map<string, string>, key: string): JsValue {
    if key in env then Str(env[key]) else Undefined
  }
}

=== FILE: message_store.dfy ===
/** The `contact_messages` collection behind `src/lib/mongodb.ts`: the cached
    connection, saving a message, listing newest first, and updating a status.
    The driver is abstract: each call receives the outcome of connecting and of
    the collection operation, the current time and the ObjectId it would assign. */
module MessageStore {
  import opened Wrappers
  import opened Js
  import opened ObjectIds

  /** The three values of `ContactMessage['status']`. */
  datatype Status = New | Read | Replied

  function StatusName(s: Status): string {
    match s
    case New => "new"
    case Read => "read"
    case Replied => "replied"
  }

  /** The four caller-supplied fields, as they arrive in the request body. */
  datatype Submission = Submission(name: JsValue, email: JsValue, subject: JsValue, message: JsValue)

  /** A stored document: `_id`, the submitted fields, `createdAt` (milliseconds) and `status`. */
  datatype Record = Record(id: ObjectId, content: Submission, createdAt: nat, status: Status)

  /** An opened client; its database handle is the same object here. */
  type Handle = nat

  /** The module-level `client` and `db` variables. */
  datatype Cache = Cache(client: Option<Handle>, db: Option<Handle>)

  /** The collection, in insertion order, together with the connection cache. */
  datatype Db = Db(cache: Cache, records: seq<Record>)

  /** What the outside world does during one store call: the client object a
      connect attempt would create, whether connecting succeeds, and whether
      the collection operation itself succeeds. */
  datatype Env = Env(newClient: Handle, connect: Outcome, driver: Outcome)

  /** A store call's effect on the store and what it returns or throws. */
  datatype StoreRun<T> = StoreRun(db: Db, result: Result<T>)

  datatype ConnectRun = ConnectRun(cache: Cache, handle: Result<Handle>)

  /** An approximation of the E11000 message MongoDB reports when an `_id` is
      already taken; the driver's text also names the database and the key value. */
  const DuplicateKeyMessage: string := "E11000 duplicate key error collection: contact_messages index: _id_ dup key"

  function EmptyCache(): Cache {
    Cache(None, None)
  }

  /** `connectToDatabase`: reuse the cached client when both variables are
      set; otherwise create a client, keep it in `client`, and set `db` once
      it has connected. A failed connect is rethrown. */
  function Connect(c: Cache, newClient: Handle, attempt: Outcome): (r: ConnectRun)
    ensures c.client.Some? && c.db.Some? ==> r.cache == c && r.handle == Ok(c.db.value)
    ensures !(c.client.Some? && c.db.Some?) ==>
      && r.cache.client == Some(newClient)
      && (attempt.Pass? ==> r.cache.db == Some(newClient) && r.handle == Ok(newClient))
      && (attempt.Fail? ==> r.cache.db == c.db && r.handle == Err(attempt.error))
  {
    if c.client.Some? && c.db.Some? then ConnectRun(c, Ok(c.db.value))
    else match attempt
      case Pass => ConnectRun(Cache(Some(newClient), Some(newClient)), Ok(newClient))
      case Fail(e) => ConnectRun(Cache(Some(newClient), c.db), Err(e))
  }

  /** `closeConnection`: close and forget a cached client; nothing to do without one.
      A failing close is rethrown and leaves the cache as it was. */
  function Close(c: Cache, attempt: Outcome): (r: (Cache, Outcome))
    ensures c.client.None? ==> r == (c, Pass)
    ensures c.client.Some? && attempt.Pass? ==> r == (EmptyCache(), Pass)
    ensures c.client.Some? && attempt.Fail? ==> r == (c, attempt)
  {
    if c.client.None? then (c, Pass)
    else if attempt.Pass? then (EmptyCache(), Pass)
    else (c, attempt)
  }

  /** Once a connect has succeeded, further connects return the same handle
      and leave the cache alone, whatever a new attempt would have done. */
  lemma ConnectIdempotent(c: Cache, newClient: Handle, attempt: Outcome, otherClient: Handle, attempt2: Outcome)
    requires Connect(c, newClient, attempt).handle.Ok?
    ensures Connect(Connect(c, newClient, attempt).cache, otherClient, attempt2)
         == ConnectRun(Connect(c, newClient, attempt).cache, Connect(c, newClient, attempt).handle)
  {
  }

  /** After a successful close the next connect opens a new client. */
  lemma CloseThenConnect(c: Cache, newClient: Handle)
    requires c.client.Some?
    ensures Close(c, Pass).0 == EmptyCache()
    ensures Connect(Close(c, Pass).0, newClient, Pass) == ConnectRun(Cache(Some(newClient), Some(newClient)), Ok(newClient))
  {
  }

  function Ids(rs: seq<Record>): set<ObjectId> {
    set i | 0 <= i < |rs| :: rs[i].id
  }

  /** No two stored documents share an `_id`. */
  predicate UniqueIds(rs: seq<Record>) {
    forall i, j :: 0 <= i < j < |rs| ==> rs[i].id != rs[j].id
  }

  /** What `saveContactMessage` returns. */
  datatype SaveReply = SaveReply(success: bool, id: string)

  /** `saveContactMessage`: insert the fields with `createdAt` now and status
      'new', returning the new `_id` as text. Connection and insert failures
      (including a taken `_id`) are rethrown and store nothing. */
  function Save(db: Db, data: Submission, now: nat, id: ObjectId, env: Env): (r: StoreRun<SaveReply>)
    ensures r.db.cache == Connect(db.cache, env.newClient, env.connect).cache
    ensures r.result.Ok? <==>
      Connect(db.cache, env.newClient, env.connect).handle.Ok? && env.driver.Pass? && id !in Ids(db.records)
    ensures r.result.Ok? ==>
      && r.db.records == db.records + [Record(id, data, now, New)]
      && r.result.value.success
      && ParseId(r.result.value.id) == Ok(id)
    ensures r.result.Err? ==> r.db.records == db.records
    ensures Connect(db.cache, env.newClient, env.connect).handle.Err? ==>
      r.result == Err(Connect(db.cache, env.newClient, env.connect).handle.error)
    ensures Connect(db.cache, env.newClient, env.connect).handle.Ok? && env.driver.Fail? ==>
      r.result == Err(env.driver.error)
  {
    var conn := Connect(db.cache, env.newClient, env.connect);
    var db' := db.(cache := conn.cache);
    if conn.handle.Err? then StoreRun(db', Err(conn.handle.error))
    else if env.driver.Fail? then StoreRun(db', Err(env.driver.error))
    else if id in Ids(db.records) then StoreRun(db', Err(DuplicateKeyMessage))
    else
      IdTextRoundTrip(id);
      StoreRun(db'.(records := db.records + [Record(id, data, now, New)]), Ok(SaveReply(true, IdText(id))))
  }

  /** Saving keeps the `_id`s unique. */
  lemma SaveKeepsIdsUnique(db: Db, data: Submission, now: nat, id: ObjectId, env: Env)
    requires UniqueIds(db.records)
    ensures UniqueIds(Save(db, data, now, id, env).db.records)
  {
    var rs := db.records;
    var r := Save(db, data, now, id, env);
    if r.result.Ok? {
      var rs' := r.db.records;
      forall i, j | 0 <= i < j < |rs'|
        ensures rs'[i].id != rs'[j].id
      {
        if j == |rs| {
          assert rs'[i].id == rs[i].id && rs[i].id in Ids(rs);
        }
      }
    }
  }

  /** Documents ordered by `createdAt`, most recent first. */
  predicate NewestFirst(rs: seq<Record>) {
    forall i, j :: 0 <= i < j < |rs| ==> rs[i].createdAt >= rs[j].createdAt
  }

  /** Insert one document into a newest-first sequence. */
  function InsertNewestFirst(x: Record, sorted: seq<Record>): (r: seq<Record>)
    requires NewestFirst(sorted)
    ensures NewestFirst(r)
    ensures multiset(r) == multiset(sorted) + multiset{x}
    ensures |r| == |sorted| + 1
    ensures r[0] == x || (|sorted| > 0 && r[0] == sorted[0])
  {
    if |sorted| == 0 || x.createdAt >= sorted[0].createdAt then [x] + sorted
    else
      var rest := InsertNewestFirst(x, sorted[1..]);
      assert sorted == [sorted[0]] + sorted[1..];
      assert sorted[0].createdAt >= rest[0].createdAt;
      [sorted[0]] + rest
  }

  /** `.sort({ createdAt: -1 })`, as an insertion sort. MongoDB leaves the
      order of equal timestamps open; so does the contract. */
  function SortNewestFirst(rs: seq<Record>): (r: seq<Record>)
    ensures NewestFirst(r)
    ensures multiset(r) == multiset(rs)
  {
    if |rs| == 0 then []
    else
      assert rs == [rs[0]] + rs[1..];
      InsertNewestFirst(rs[0], SortNewestFirst(rs[1..]))
  }

  /** `getContactMessages`: every stored document, newest first. Failures are
      rethrown; listing never changes the documents. */
  function List(db: Db, env: Env): (r: StoreRun<seq<Record>>)
    ensures r.db.records == db.records
    ensures r.db.cache == Connect(db.cache, env.newClient, env.connect).cache
    ensures r.result.Ok? <==> Connect(db.cache, env.newClient, env.connect).handle.Ok? && env.driver.Pass?
    ensures r.result.Ok? ==> multiset(r.result.value) == multiset(db.records) && NewestFirst(r.result.value)
    ensures Connect(db.cache, env.newClient, env.connect).handle.Err? ==>
      r.result == Err(Connect(db.cache, env.newClient, env.connect).handle.error)
    ensures Connect(db.cache, env.newClient, env.connect).handle.Ok? && env.driver.Fail? ==>
      r.result == Err(env.driver.error)
  {
    var conn := Connect(db.cache, env.newClient, env.connect);
    var db' := db.(cache := conn.cache);
    if conn.handle.Err? then StoreRun(db', Err(conn.handle.error))
    else if env.driver.Fail? then StoreRun(db', Err(env.driver.error))
    else StoreRun(db', Ok(SortNewestFirst(db.records)))
  }

  /** No two different documents share a `createdAt`. */
  predicate DistinctTimes(rs: seq<Record>) {
    forall i, j :: 0 <= i < |rs| && 0 <= j < |rs| && rs[i].createdAt == rs[j].createdAt ==> rs[i] == rs[j]
  }

  lemma DistinctTimesPermutation(a: seq<Record>, b: seq<Record>)
    requires multiset(a) == multiset(b) && DistinctTimes(a)
    ensures DistinctTimes(b)
  {
    forall i, j | 0 <= i < |b| && 0 <= j < |b| && b[i].createdAt == b[j].createdAt
      ensures b[i] == b[j]
    {
      assert b[i] in multiset(a) && b[j] in multiset(a);
      var p :| 0 <= p < |a| && a[p] == b[i];
      var q :| 0 <= q < |a| && a[q] == b[j];
    }
  }

  lemma TailKeepsOrder(a: seq<Record>)
    requires |a| > 0 && NewestFirst(a) && DistinctTimes(a)
    ensures NewestFirst(a[1..]) && DistinctTimes(a[1..])
  {
    var t := a[1..];
    forall i, j | 0 <= i < j < |t|
      ensures t[i].createdAt >= t[j].createdAt
    {
      assert t[i] == a[i + 1] && t[j] == a[j + 1];
    }
    forall i, j | 0 <= i < |t| && 0 <= j < |t| && t[i].createdAt == t[j].createdAt
      ensures t[i] == t[j]
    {
      assert t[i] == a[i + 1] && t[j] == a[j + 1];
    }
  }

  /** Two newest-first arrangements of the same documents with distinct
      timestamps begin with the same, newest, document. */
  lemma HeadsAgree(a: seq<Record>, b: seq<Record>)
    requires |a| > 0 && multiset(a) == multiset(b)
    requires NewestFirst(a) && NewestFirst(b) && DistinctTimes(a)
    ensures |b| > 0 && a[0] == b[0]
  {
    assert a[0] in multiset(b);
    var k :| 0 <= k < |b| && b[k] == a[0];
    assert b[0] in multiset(a);
    var l :| 0 <= l < |a| && a[l] == b[0];
    assert a[0].createdAt >= a[l].createdAt;
    assert b[0].createdAt >= b[k].createdAt;
  }

  /** When timestamps are distinct, the newest-first order is unique: any two
      newest-first arrangements of the same documents are equal. */
  lemma {:induction false} NewestFirstUnique(a: seq<Record>, b: seq<Record>)
    requires multiset(a) == multiset(b)
    requires NewestFirst(a) && NewestFirst(b) && DistinctTimes(a)
    ensures a == b
    decreases |a|
  {
    if |a| == 0 {
      assert |b| == |multiset(b)| == 0;
    } else {
      HeadsAgree(a, b);
      TailKeepsOrder(a);
      DistinctTimesPermutation(a, b);
      TailKeepsOrder(b);
      assert a == [a[0]] + a[1..] && b == [b[0]] + b[1..];
      assert multiset(a[1..]) == multiset(b[1..]) by {
        assert multiset(a) == multiset([a[0]]) + multiset(a[1..]);
        assert multiset(b) == multiset([b[0]]) + multiset(b[1..]);
        assert multiset(a[1..]) == multiset(a) - multiset([a[0]]);
        assert multiset(b[1..]) == multiset(b) - multiset([b[0]]);
      }
      NewestFirstUnique(a[1..], b[1..]);
    }
  }

  /** With distinct timestamps a successful listing is determined by the
      documents alone: it equals every newest-first arrangement of them, so it
      does not depend on how ties would be broken. */
  lemma ListingDetermined(db: Db, env: Env, listed: seq<Record>)
    requires DistinctTimes(db.records)
    requires List(db, env).result.Ok?
    requires multiset(listed) == multiset(db.records) && NewestFirst(listed)
    ensures List(db, env).result.value == listed
  {
    var ls := List(db, env).result.value;
    DistinctTimesPermutation(db.records, ls);
    NewestFirstUnique(ls, listed);
  }

  /** The position of the first document with the given `_id`, the one `updateOne` picks. */
  function FindId(rs: seq<Record>, id: ObjectId): (r: Option<nat>)
    ensures r.None? <==> id !in Ids(rs)
    ensures r.Some? ==> r.value < |rs| && rs[r.value].id == id
    ensures r.Some? ==> forall j :: 0 <= j < r.value ==> rs[j].id != id
  {
    if |rs| == 0 then None
    else if rs[0].id == id then Some(0)
    else match FindId(rs[1..], id)
      case None => None
      case Some(k) => Some(k + 1)
  }

  /** `updateMessageStatus`: `updateOne({ _id: new ObjectId(id) }, { $set: { status } })`,
      answering `modifiedCount > 0`. Text that is not an ObjectId throws after
      connecting; an unknown id, or a status already equal, modifies nothing. */
  function UpdateStatus(db: Db, idText: string, status: Status, env: Env): (r: StoreRun<bool>)
    ensures r.db.cache == Connect(db.cache, env.newClient, env.connect).cache
    ensures |r.db.records| == |db.records|
    ensures r.result.Err? ==> r.db.records == db.records
    ensures r.result.Ok? <==>
      Connect(db.cache, env.newClient, env.connect).handle.Ok? && ParseId(idText).Ok? && env.driver.Pass?
    ensures Connect(db.cache, env.newClient, env.connect).handle.Err? ==>
      r.result == Err(Connect(db.cache, env.newClient, env.connect).handle.error)
    ensures Connect(db.cache, env.newClient, env.connect).handle.Ok? && ParseId(idText).Err? ==>
      r.result == Err(InvalidIdMessage)
    ensures Connect(db.cache, env.newClient, env.connect).handle.Ok? && ParseId(idText).Ok? && env.driver.Fail? ==>
      r.result == Err(env.driver.error)
    ensures r.result.Ok? ==>
      var id := ParseId(idText).value;
      && (r.result.value <==> exists i :: 0 <= i < |db.records| && db.records[i].id == id && db.records[i].status != status
                                && forall j :: 0 <= j < i ==> db.records[j].id != id)
      && forall i :: 0 <= i < |db.records| ==>
           r.db.records[i] == (if FindId(db.records, id) == Some(i) then db.records[i].(status := status) else db.records[i])
  {
    var conn := Connect(db.cache, env.newClient, env.connect);
    var db' := db.(cache := conn.cache);
    if conn.handle.Err? then StoreRun(db', Err(conn.handle.error))
    else match ParseId(idText)
      case Err(e) => StoreRun(db', Err(e))
      case Ok(id) =>
        if env.driver.Fail? then StoreRun(db', Err(env.driver.error))
        else match FindId(db.records, id)
          case None => StoreRun(db', Ok(false))
          case Some(i) =>
            var prior := db.records[i];
            StoreRun(db'.(records := db.records[i := prior.(status := status)]), Ok(prior.status != status))
  }

  /** With unique `_id`s, a successful status update rewrites the status of
      the one matching document, leaves its other fields and every other
      document untouched, and reports a modification exactly when the status
      changed. */
  lemma UpdateTouchesOnlyTarget(db: Db, idText: string, status: Status, env: Env)
    requires UniqueIds(db.records)
    requires UpdateStatus(db, idText, status, env).result.Ok?
    ensures var id := ParseId(idText).value;
      var r := UpdateStatus(db, idText, status, env);
      && (forall i :: 0 <= i < |db.records| && db.records[i].id != id ==> r.db.records[i] == db.records[i])
      && (forall i :: 0 <= i < |db.records| && db.records[i].id == id ==>
            && r.db.records[i].status == status
            && r.db.records[i].id == db.records[i].id
            && r.db.records[i].content == db.records[i].content
            && r.db.records[i].createdAt == db.records[i].createdAt)
      && (r.result.value <==> exists i :: 0 <= i < |db.records| && db.records[i].id == id && db.records[i].status != status)
      && UniqueIds(r.db.records)
  {
    var id := ParseId(idText).value;
    var r := UpdateStatus(db, idText, status, env);
    forall i | 0 <= i < |db.records| && db.records[i].id == id
      ensures FindId(db.records, id) == Some(i)
    {
      assert id in Ids(db.records);
    }
  }

  /** An ObjectId that is not stored is a successful no-op answering false. */
  lemma UpdateUnknownId(db: Db, idText: string, status: Status, env: Env)
    requires Connect(db.cache, env.newClient, env.connect).handle.Ok? && env.driver.Pass?
    requires ParseId(idText).Ok? && ParseId(idText).value !in Ids(db.records)
    ensures UpdateStatus(db, idText, status, env).result == Ok(false)
    ensures UpdateStatus(db, idText, status, env).db.records == db.records
  {
  }

  /** Once a status update has succeeded, a later listing shows the document
      with its new status. */
  lemma ListAfterUpdate(db: Db, id: ObjectId, status: Status, env: Env, env2: Env)
    requires UniqueIds(db.records)
    requires UpdateStatus(db, IdText(id), status, env).result.Ok?
    requires id in Ids(db.records)
    ensures var db' := UpdateStatus(db, IdText(id), status, env).db;
      List(db', env2).result.Ok? ==>
        exists k :: 0 <= k < |List(db', env2).result.value| &&
          List(db', env2).result.value[k].id == id && List(db', env2).result.value[k].status == status
  {
    IdTextRoundTrip(id);
    var db' := UpdateStatus(db, IdText(id), status, env).db;
    var i :| 0 <= i < |db.records| && db.records[i].id == id;
    UpdateTouchesOnlyTarget(db, IdText(id), status, env);
    var listed := List(db', env2).result;
    if listed.Ok? {
      assert db'.records[i] in multiset(db'.records);
      assert db'.records[i] in multiset(listed.value);
      var k :| 0 <= k < |listed.value| && listed.value[k] == db'.records[i];
    }
  }

  /** A message saved later than every stored one is listed first. */
  lemma SaveThenListNewestFirst(db: Db, data: Submission, now: nat, id: ObjectId, env: Env, env2: Env)
    requires forall i :: 0 <= i < |db.records| ==> db.records[i].createdAt < now
    requires Save(db, data, now, id, env).result.Ok?
    ensures var db' := Save(db, data, now, id, env).db;
      List(db', env2).result.Ok? ==>
        && |List(db', env2).result.value| == |db.records| + 1
        && List(db', env2).result.value[0] == Record(id, data, now, New)
  {
    var db' := Save(db, data, now, id, env).db;
    var listed := List(db', env2).result;
    var x := Record(id, data, now, New);
    if listed.Ok? {
      var ls := listed.value;
      assert |ls| == |multiset(ls)| == |multiset(db'.records)| == |db'.records|;
      assert db'.records[|db.records|] == x;
      assert x in multiset(ls);
      var k :| 0 <= k < |ls| && ls[k] == x;
      assert ls[0] in multiset(db'.records);
      var m :| 0 <= m < |db'.records| && db'.records[m] == ls[0];
      assert ls[0].createdAt >= ls[k].createdAt == now;
    }
  }
}

=== FILE: navbar.dfy ===
/** The scroll-spy and menu state of `src/components/Navbar.tsx`. Element
    geometry is given as a map from section id to the element's bounding box
    (absent ids have no element); pixel values are integers here. */
module Navbar {
  import opened Wrappers

  /** `getBoundingClientRect()`'s vertical extent. */
  datatype Rect = Rect(top: int, bottom: int)

  datatype NavState = NavState(isScrolled: bool, menuOpen: bool, active: string)

  /** The sections, in the order the scroll handler tries them. */
  const Sections: seq<string> := ["hero", "about", "skills", "projects", "contact"]

  /** The line, 100 pixels below the viewport top, a section must span. */
  const ProbeLine: int := 100

  function Initial(): NavState {
    NavState(false, false, "hero")
  }

  /** The section's element exists and spans the probe line. */
  predicate Spans(layout: map<string, Rect>, id: string) {
    id in layout && layout[id].top <= ProbeLine && layout[id].bottom >= ProbeLine
  }

  /** `sections.find(...)` over a suffix of the section list. */
  function FindSpanning(ids: seq<string>, layout: map<string, Rect>): (r: Option<nat>)
    ensures r.None? <==> forall i :: 0 <= i < |ids| ==> !Spans(layout, ids[i])
    ensures r.Some? ==> r.value < |ids| && Spans(layout, ids[r.value])
    ensures r.Some? ==> forall i :: 0 <= i < r.value ==> !Spans(layout, ids[i])
  {
    if |ids| == 0 then None
    else if Spans(layout, ids[0]) then Some(0)
    else match FindSpanning(ids[1..], layout)
      case None => None
      case Some(k) => Some(k + 1)
  }

  /** `handleScroll`: the bar is "scrolled" past 10 pixels; the active section
      becomes the first section spanning the probe line, or stays as it was. */
  function HandleScroll(s: NavState, scrollY: int, layout: map<string, Rect>): (r: NavState)
    ensures r.isScrolled <==> scrollY > 10
    ensures r.menuOpen == s.menuOpen
    ensures (forall i :: 0 <= i < |Sections| ==> !Spans(layout, Sections[i])) ==> r.active == s.active
    ensures forall k :: (0 <= k < |Sections| && Spans(layout, Sections[k])
                         && (forall j :: 0 <= j < k ==> !Spans(layout, Sections[j]))) ==> r.active == Sections[k]
  {
    var active := match FindSpanning(Sections, layout)
      case Some(k) => Sections[k]
      case None => s.active;
    NavState(scrollY > 10, s.menuOpen, active)
  }

  /** The page opens on the hero section, unscrolled, with the menu closed. */
  lemma InitialState()
    ensures Initial().active == Sections[0] && !Initial().isScrolled && !Initial().menuOpen
  {
  }

  /** Handling the same scroll position twice changes nothing more. */
  lemma HandleScrollIdempotent(s: NavState, scrollY: int, layout: map<string, Rect>)
    ensures HandleScroll(HandleScroll(s, scrollY, layout), scrollY, layout) == HandleScroll(s, scrollY, layout)
  {
  }

  /** One scroll handling keeps the active section among the five. */
  lemma ActiveIsASection(s: NavState, scrollY: int, layout: map<string, Rect>)
    requires s.active in Sections
    ensures HandleScroll(s, scrollY, layout).active in Sections
  {
  }

  /** `scrollToSection`: when the element exists, make it active and close the
      mobile menu; otherwise nothing changes. */
  function ScrollToSection(s: NavState, id: string, layout: map<string, Rect>): (r: NavState)
    ensures id in layout ==> r.active == id && !r.menuOpen && r.isScrolled == s.isScrolled
    ensures id !in layout ==> r == s
  {
    if id in layout then s.(active := id, menuOpen := false) else s
  }

  /** The menu button. */
  function ToggleMenu(s: NavState): (r: NavState)
    ensures r.menuOpen != s.menuOpen
    ensures r.isScrolled == s.isScrolled && r.active == s.active
  {
    s.(menuOpen := !s.menuOpen)
  }

  /** Pressing the menu button twice restores the state. */
  lemma ToggleTwice(s: NavState)
    ensures ToggleMenu(ToggleMenu(s)) == s
  {
  }

  /** The ids of `navItems`, the same five ids in the same order as the
      scroll handler's sections; the logo links to 'hero' and the
      call-to-action buttons to 'contact', both among them. */
  const NavItemIds: seq<string> := Sections

  /** What can happen to the bar: a scroll at some position and layout, a
      click on a link to a section id, or the menu button. */
  datatype NavEvent = Scrolled(scrollY: int, layout: map<string, Rect>)
                    | Clicked(id: string, layout: map<string, Rect>)
                    | MenuPressed

  function Handle(s: NavState, e: NavEvent): NavState {
    match e
    case Scrolled(y, layout) => HandleScroll(s, y, layout)
    case Clicked(id, layout) => ScrollToSection(s, id, layout)
    case MenuPressed => ToggleMenu(s)
  }

  function HandleAll(s: NavState, events: seq<NavEvent>): NavState
    decreases |events|
  {
    if |events| == 0 then s else HandleAll(Handle(s, events[0]), events[1..])
  }

  /** Every click the component can produce targets a nav item id. */
  predicate ClicksOnNavItems(events: seq<NavEvent>) {
    forall i :: 0 <= i < |events| && events[i].Clicked? ==> events[i].id in NavItemIds
  }

  /** Whatever sequence of scrolls, clicks on the bar's links and menu presses
      follows the first render, the active section is one of the five. */
  lemma {:induction false} ActiveAlwaysASection(s: NavState, events: seq<NavEvent>)
    requires s.active in Sections
    requires ClicksOnNavItems(events)
    ensures HandleAll(s, events).active in Sections
    decreases |events|
  {
    if |events| > 0 {
      var e := events[0];
      if e.Scrolled? {
        ActiveIsASection(s, e.scrollY, e.layout);
      } else if e.Clicked? {
        assert e.id in NavItemIds;
      }
      assert ClicksOnNavItems(events[1..]) by {
        forall i | 0 <= i < |events[1..]| && events[1..][i].Clicked?
          ensures events[1..][i].id in NavItemIds
        {
          assert events[1..][i] == events[i + 1];
        }
      }
      ActiveAlwaysASection(Handle(s, e), events[1..]);
    }
  }

  lemma ReachableActive(events: seq<NavEvent>)
    requires ClicksOnNavItems(events)
    ensures HandleAll(Initial(), events).active in Sections
  {
    ActiveAlwaysASection(Initial(), events);
  }
}

=== FILE: object_id.dfy ===
/** MongoDB ObjectIds and their text form: `ObjectId.toString()` writes the
    twelve bytes as 24 lower-case hexadecimal digits, and `new ObjectId(text)`
    accepts exactly the 24-digit hexadecimal strings, in either case. */
module ObjectIds {
  import opened Wrappers

  const IdWidth: nat := 24

  /** Twelve bytes, read as one big-endian number. */
  newtype ObjectId = v: int | 0 <= v < 0x1_0000_0000_0000_0000_0000_0000

  /** The message bson throws for text that is not an ObjectId. */
  const InvalidIdMessage: string := "input must be a 24 character hex string, 12 byte Uint8Array, or an integer"

  function Pow16(n: nat): (r: nat)
    ensures r > 0
  {
    if n == 0 then 1 else 16 * Pow16(n - 1)
  }

  /** Twenty-four hexadecimal digits span exactly the ObjectId range. */
  lemma Pow16IdWidth()
    ensures Pow16(IdWidth) == 0x1_0000_0000_0000_0000_0000_0000
  {
    assert Pow16(2) == 0x100;
    assert Pow16(4) == 0x1_0000;
    assert Pow16(6) == 0x100_0000;
    assert Pow16(8) == 0x1_0000_0000;
    assert Pow16(10) == 0x100_0000_0000;
    assert Pow16(12) == 0x1_0000_0000_0000;
    assert Pow16(14) == 0x100_0000_0000_0000;
    assert Pow16(16) == 0x1_0000_0000_0000_0000;
    assert Pow16(18) == 0x100_0000_0000_0000_0000;
    assert Pow16(20) == 0x1_0000_0000_0000_0000_0000;
    assert Pow16(22) == 0x100_0000_0000_0000_0000_0000;
  }

  predicate IsHexChar(c: char) {
    '0' <= c <= '9' || 'a' <= c <= 'f' || 'A' <= c <= 'F'
  }

  function HexCharValue(c: char): (d: nat)
    requires IsHexChar(c)
    ensures d < 16
  {
    if '0' <= c <= '9' then (c - '0') as nat
    else if 'a' <= c <= 'f' then (c - 'a') as nat + 10
    else (c - 'A') as nat + 10
  }

  function LowerHexChar(d: nat): (c: char)
    requires d < 16
    ensures IsHexChar(c) && HexCharValue(c) == d
  {
    "0123456789abcdef"[d]
  }

  /** The last `width` hexadecimal digits of `v`, most significant first. */
  function HexDigits(v: nat, width: nat): (r: string)
    ensures |r| == width
    ensures forall i :: 0 <= i < |r| ==> IsHexChar(r[i])
  {
    if width == 0 then "" else HexDigits(v / 16, width - 1) + [LowerHexChar(v % 16)]
  }

  /** The number a string of hexadecimal digits denotes. */
  function HexValue(s: string): (v: nat)
    requires forall i :: 0 <= i < |s| ==> IsHexChar(s[i])
    ensures v < Pow16(|s|)
  {
    if |s| == 0 then 0 else HexValue(s[..|s| - 1]) * 16 + HexCharValue(s[|s| - 1])
  }

  /** `id.toString()` */
  function IdText(id: ObjectId): string {
    HexDigits(id as nat, IdWidth)
  }

  /** `new ObjectId(text)`, which throws on anything but 24 hexadecimal digits. */
  function ParseId(text: string): (r: Result<ObjectId>)
    ensures r.Ok? <==> |text| == IdWidth && forall i :: 0 <= i < |text| ==> IsHexChar(text[i])
    ensures r.Err? ==> r.error == InvalidIdMessage
  {
    if |text| == IdWidth && forall i :: 0 <= i < |text| ==> IsHexChar(text[i]) then
      Pow16IdWidth();
      Ok(HexValue(text) as ObjectId)
    else
      Err(InvalidIdMessage)
  }

  /** Reading back `width` digits of a number below `16^width` gives the number. */
  lemma {:induction false} HexRoundTrip(v: nat, width: nat)
    requires v < Pow16(width)
    ensures HexValue(HexDigits(v, width)) == v
  {
    if width > 0 {
      HexRoundTrip(v / 16, width - 1);
      var t := HexDigits(v, width);
      assert t[..|t| - 1] == HexDigits(v / 16, width - 1);
    }
  }

  /** The text an ObjectId prints as parses back to the same ObjectId. */
  lemma IdTextRoundTrip(id: ObjectId)
    ensures ParseId(IdText(id)) == Ok(id)
  {
    Pow16IdWidth();
    HexRoundTrip(id as nat, IdWidth);
  }

  /** Distinct ObjectIds print differently. */
  lemma IdTextInjective(a: ObjectId, b: ObjectId)
    requires IdText(a) == IdText(b)
    ensures a == b
  {
    IdTextRoundTrip(a);
    IdTextRoundTrip(b);
  }
}

=== FILE: typing_effect.dfy ===
/** The `useTypingEffect` hook: it types the current word one character at a
    time, pauses on the complete word, deletes it one character at a time and
    moves on to the next word, cyclically. Timers are modelled by the order in
    which they fire; their durations are left out. */
module TypingEffect {
  import opened Wrappers

  /** The hook's four pieces of React state. */
  datatype TypingState = TypingState(index: nat, text: string, typing: bool, paused: bool)

  /** The timer callbacks: `typeText`, the end of the pause between words, `deleteText`. */
  datatype Event = TypeChar | EndPause | DeleteChar

  /** The state on first render. */
  function Initial(): TypingState {
    TypingState(0, "", true, false)
  }

  /** What the hook promises about every state it reaches: the index names a
      word, the displayed text is a prefix of that word, and a pause only
      happens while typing, on the complete word. */
  predicate Inv(words: seq<string>, s: TypingState) {
    && s.index < |words|
    && s.text <= words[s.index]
    && (s.paused ==> s.typing && s.text == words[s.index])
  }

  /** The timer the effect schedules: none while paused, otherwise `typeText`
      while typing and `deleteText` while deleting. */
  function Scheduled(s: TypingState): (e: Option<Event>)
    ensures e.None? <==> s.paused
    ensures e == Some(TypeChar) <==> !s.paused && s.typing
    ensures e == Some(DeleteChar) <==> !s.paused && !s.typing
  {
    if s.paused then None else if s.typing then Some(TypeChar) else Some(DeleteChar)
  }

  /** `typeText`: extend the text by the next character of the current word, or,
      once the word is complete, pause. `None` is the TypeError raised when the
      index names no word (only possible for an empty word list). */
  function TypeText(words: seq<string>, s: TypingState): (r: Option<TypingState>)
    ensures r.None? <==> s.index >= |words|
    ensures r.Some? ==> r.value.index == s.index && r.value.typing == s.typing
    ensures r.Some? && s.text <= words[s.index] && s.text != words[s.index] ==>
      && r.value.paused == s.paused
      && |r.value.text| == |s.text| + 1
      && s.text < r.value.text <= words[s.index]
    ensures r.Some? && |s.text| >= |words[s.index]| ==> r.value.paused && r.value.text == s.text
  {
    if s.index >= |words| then None
    else if |s.text| < |words[s.index]| then Some(s.(text := words[s.index][..|s.text| + 1]))
    else Some(s.(paused := true))
  }

  /** The timeout set by `typeText` when it pauses: resume, now deleting. */
  function EndPauseStep(s: TypingState): (r: TypingState)
    ensures !r.paused && !r.typing
    ensures r.index == s.index && r.text == s.text
  {
    s.(paused := false, typing := false)
  }

  /** `deleteText`: drop the last character, or, once the text is empty, start
      typing the next word (wrapping around). `None` is the `NaN` index that
      `% words.length` yields for an empty word list. */
  function DeleteText(words: seq<string>, s: TypingState): (r: Option<TypingState>)
    ensures r.None? <==> |s.text| == 0 && |words| == 0
    ensures r.Some? && |s.text| > 0 ==>
      && r.value.text + [s.text[|s.text| - 1]] == s.text
      && r.value.index == s.index && r.value.typing == s.typing && r.value.paused == s.paused
    ensures r.Some? && |s.text| == 0 ==>
      && r.value.typing && r.value.text == s.text && r.value.paused == s.paused
      && r.value.index < |words|
      && (s.index + 1 < |words| ==> r.value.index == s.index + 1)
      && (s.index + 1 == |words| ==> r.value.index == 0)
  {
    if |s.text| > 0 then Some(s.(text := s.text[..|s.text| - 1]))
    else if |words| == 0 then None
    else Some(s.(typing := true, index := (s.index + 1) % |words|))
  }

  /** The next timer to fire: the one the effect scheduled, or, while paused,
      the pending end of the pause. */
  function NextEvent(s: TypingState): Event {
    match Scheduled(s)
    case Some(e) => e
    case None => EndPause
  }

  /** One timer firing. */
  function Step(words: seq<string>, s: TypingState): Option<TypingState> {
    match NextEvent(s)
    case TypeChar => TypeText(words, s)
    case EndPause => Some(EndPauseStep(s))
    case DeleteChar => DeleteText(words, s)
  }

  /** `n` timers firing in a row; `None` once the hook has failed. */
  function Run(words: seq<string>, s: TypingState, n: nat): Option<TypingState>
    decreases n
  {
    if n == 0 then Some(s)
    else match Step(words, s)
      case None => None
      case Some(t) => Run(words, t, n - 1)
  }

  /** The first render satisfies the invariant whenever there is a word. */
  lemma InitialInv(words: seq<string>)
    requires |words| > 0
    ensures Inv(words, Initial())
    ensures Initial().index == 0 && Initial().text == "" && Initial().typing && !Initial().paused
  {
  }

  /** Every timer firing from a state satisfying the invariant succeeds and
      keeps the invariant. */
  lemma StepInv(words: seq<string>, s: TypingState)
    requires Inv(words, s)
    ensures Step(words, s).Some? && Inv(words, Step(words, s).value)
  {
    var w := words[s.index];
    if !s.paused && s.typing && |s.text| >= |w| {
      assert s.text == w;
    }
  }

  /** Any number of firings from a state satisfying the invariant succeed and
      keep the invariant. */
  lemma {:induction false} RunInv(words: seq<string>, s: TypingState, n: nat)
    requires Inv(words, s)
    ensures Run(words, s, n).Some? && Inv(words, Run(words, s, n).value)
    decreases n
  {
    if n > 0 {
      StepInv(words, s);
      RunInv(words, Step(words, s).value, n - 1);
    }
  }

  /** For a non-empty word list, every reachable state keeps the index in
      range and shows a prefix of the current word. */
  lemma ReachableInv(words: seq<string>, n: nat)
    requires |words| > 0
    ensures Run(words, Initial(), n).Some?
    ensures Run(words, Initial(), n).value.index < |words|
    ensures Run(words, Initial(), n).value.text <= words[Run(words, Initial(), n).value.index]
  {
    InitialInv(words);
    RunInv(words, Initial(), n);
  }

  /** Running `a` then `b` firings is running `a + b` firings. */
  lemma {:induction false} RunSplit(words: seq<string>, s: TypingState, a: nat, b: nat)
    requires Run(words, s, a).Some?
    ensures Run(words, s, a + b) == Run(words, Run(words, s, a).value, b)
    decreases a
  {
    if a > 0 {
      RunSplit(words, Step(words, s).value, a - 1, b);
    }
  }

  /** Typing from the first `k` characters reaches the complete word after
      `|w| - k` firings. */
  lemma {:induction false} TypingPhase(words: seq<string>, i: nat, k: nat)
    requires i < |words| && k <= |words[i]|
    ensures Run(words, TypingState(i, words[i][..k], true, false), |words[i]| - k)
         == Some(TypingState(i, words[i], true, false))
    decreases |words[i]| - k
  {
    var w := words[i];
    if k == |w| {
      assert w[..k] == w;
    } else {
      assert w[..k][..] == w[..k];
      assert Step(words, TypingState(i, w[..k], true, false)) == Some(TypingState(i, w[..k + 1], true, false));
      TypingPhase(words, i, k + 1);
    }
  }

  /** Deleting from the first `k` characters empties the text after `k` firings. */
  lemma {:induction false} DeletingPhase(words: seq<string>, i: nat, k: nat)
    requires i < |words| && k <= |words[i]|
    ensures Run(words, TypingState(i, words[i][..k], false, false), k)
         == Some(TypingState(i, "", false, false))
    decreases k
  {
    var w := words[i];
    if k > 0 {
      assert w[..k][..k - 1] == w[..k - 1];
      DeletingPhase(words, i, k - 1);
    }
  }

  /** One full cycle: starting to type word `i` from empty text, after
      `2 * |w| + 3` firings (type every character, pause, resume, delete every
      character, advance) the hook starts typing the next word from empty text. */
  lemma WordCycle(words: seq<string>, i: nat)
    requires i < |words|
    ensures Run(words, TypingState(i, "", true, false), 2 * |words[i]| + 3)
         == Some(TypingState((i + 1) % |words|, "", true, false))
  {
    var w := words[i];
    var start := TypingState(i, "", true, false);
    assert w[..0] == "";
    TypingPhase(words, i, 0);
    var full := TypingState(i, w, true, false);
    var deleting := TypingState(i, w, false, false);
    assert Run(words, full, 2) == Some(deleting);
    RunSplit(words, start, |w|, 2);
    assert w[..|w|] == w;
    DeletingPhase(words, i, |w|);
    RunSplit(words, start, |w| + 2, |w|);
    var empty := TypingState(i, "", false, false);
    assert Run(words, empty, 1) == Some(TypingState((i + 1) % |words|, "", true, false));
    RunSplit(words, start, 2 * |w| + 2, 1);
  }
}

=== FILE: validation.dfy ===
/** The required-field check both server handlers apply to a request body:
    `if (!name || !email || !subject || !message)`. It tests JavaScript
    truthiness only: no trimming, no e-mail syntax, no length limit. */
module Validation {
  import opened Wrappers
  import opened Js
  import MessageStore

  const RequiredFields: seq<string> := ["name", "email", "subject", "message"]

  /** The four fields read from a body object (absent ones read as `undefined`). */
  function FieldsOf(body: JsValue): MessageStore.Submission {
    MessageStore.Submission(Get(body, "name"), Get(body, "email"), Get(body, "subject"), Get(body, "message"))
  }

  /** The submission when all four fields are truthy, otherwise `None`. */
  function Validate(body: JsValue): (r: Option<MessageStore.Submission>)
    ensures r.Some? <==> forall f :: f in RequiredFields ==> Truthy(Get(body, f))
    ensures r.Some? ==> r.value == FieldsOf(body)
  {
    var s := FieldsOf(body);
    if Truthy(s.name) && Truthy(s.email) && Truthy(s.subject) && Truthy(s.message) then Some(s) else None
  }

  /** A field that is missing, `null` or the empty string fails the check. */
  lemma EmptyFieldRejected(body: JsValue, f: string)
    requires f in RequiredFields
    requires body.Obj? ==> f !in body.props || body.props[f] in {Undefined, Null, Str("")}
    ensures Validate(body).None?
  {
  }

  /** Whitespace characters, a subset of those `String.prototype.trim` strips. */
  predicate IsSpaceChar(c: char) {
    c in {' ', '\t', '\n', '\r', '\U{000B}', '\U{000C}', '\U{00A0}'}
  }

  predicate AllSpace(s: string) {
    forall i :: 0 <= i < |s| ==> IsSpaceChar(s[i])
  }

  /** Any body whose four fields are non-empty, whitespace-only strings
      passes: non-empty text is truthy and nothing trims it. */
  lemma WhitespaceAccepted(a: string, b: string, c: string, d: string)
    requires |a| > 0 && |b| > 0 && |c| > 0 && |d| > 0
    requires AllSpace(a) && AllSpace(b) && AllSpace(c) && AllSpace(d)
    ensures Validate(Obj(map["name" := Str(a), "email" := Str(b), "subject" := Str(c), "message" := Str(d)])).Some?
  {
    var body := Obj(map["name" := Str(a), "email" := Str(b), "subject" := Str(c), "message" := Str(d)]);
    assert Get(body, "name") == Str(a);
  }
}

=== FILE: wrappers.dfy ===
/** Failure-carrying datatypes used in place of JavaScript's thrown errors
    and `undefined`. An error is represented by its `message` text. */
module Wrappers {

  datatype Option<+T> = None | Some(value: T)

  /** A call that either returns `value` or throws an error whose message is `error`. */
  datatype Result<+T> = Ok(value: T) | Err(error: string)

  /** A side effect that either completes or throws. */
  datatype Outcome = Pass | Fail(error: string)
}
